=== FILE: README.md ===
# AI voice gateway: a Dafny model

The gateway answers a phone call, takes the caller's Twilio Media Stream, and bridges it to
an OpenAI Realtime session. This project models the core of that:

- **The Realtime session object** (`realtime_agent.dfy`, module `RealtimeAgent`). It buffers
  caller audio until the socket opens. On open it sends `session.update` and flushes the
  buffer in order. While connected, it asks for at most one response per turn. It emits
  `"audio"` events for both audio-delta shapes and a `"lead"` event for `capture_lead` tool
  calls, and it ends with `commit` when open, then `close`.
  - The object is `class Session`. Its fields are the socket's `readyState`, the flags, the
    pending buffer, the listeners and a log of the messages sent.
  - Each method is proved against a step function on a `SessionState` value.
  - The invariant `Inv` holds the turn-taking property. A ghost record of the traffic
    interleaves the messages sent with the terminal response messages handled. No two
    `response.create` messages are ever sent without a `response.completed` or
    `response.error` handled between them (`NoCreateWithoutRelease`).
- **The per-call bridge** (`call_bridge.dfy`, module `CallBridge`). Each Twilio connection
  owns exactly one Realtime session, which is created before any Twilio message is handled.
  - The session's `"audio"` listener forwards chunks to Twilio once the stream id is known.
  - Twilio's `start`, `media` and `stop` messages set the stream id, feed audio to the session,
    and end the call.
  - Twilio's `close` and `error` events end the session.
- **Client onboarding** (`client_onboarding.dfy`, module `ClientOnboarding`).
  - `onboardClient` checks the environment, then searches for a number with the pattern and
    country defaulted.
  - It buys the first number found, with the voice and SMS webhooks on the public host.
  - It merges the number into the configuration and writes the result to
    `clients/<slug>.json`.
  - Twilio's search and purchase are functions passed in. The calls made and the file
    written are returned as a log of effects.
- **The batch processor** (`onboarding_batch.dfy`, module `ProcessResponses`). It runs the row
  loop of `processSheet`.
  - A row with no business name, or whose configuration file exists, is skipped.
  - Otherwise the row's configuration is built and onboarded.
  - A failed onboarding ends only its own row.
- **The shared text rules** (`text_rules.dfy`, module `TextRules`): trimming, ASCII
  lower-casing, the comma-separated list parser and the slug. `wrappers.dfy` holds `Option`
  and `Result`, and `json.dfy` holds the JSON value type.

Four behaviours of the code that a reader might not expect, which the model keeps:

- `sendAudio` buffers a chunk whenever the session is not open. That includes after the socket
  has closed, where a no-op might be expected.
- `endSession` calls `close()` each time it is called.
- There is no response timeout. A lost `response.completed` leaves the turn flag set.
- A business name with no ASCII letter or digit (a Greek name, or punctuation only) has the
  empty slug, so its file is `clients/.json`. Every such business shares that file, and in a
  batch all but the first of them are skipped as already onboarded.

## Model

| member | source | states |
|---|---|---|
| `RealtimeAgent.FanoutAt` | realtime-agent.js:31-39 | `emit` calls every listener of the event once, in registration order, with the same data |
| `RealtimeAgent.FanoutConcat` | realtime-agent.js:31-39 | emitting to two runs of listeners is emitting to the first run, then the second |
| `RealtimeAgent.AppendsConcat` | realtime-agent.js:183-190 | the flush's appends for two runs of chunks are the first run's appends, then the second's |
| `RealtimeAgent.AppendsLength` | realtime-agent.js:183-190 | the flush sends one append per buffered chunk |
| `RealtimeAgent.AppendsAt` | realtime-agent.js:183-190 | the k-th append of the flush carries the k-th buffered chunk |
| `RealtimeAgent.FlushOne` | realtime-agent.js:183-190 | one more step of the flush loop adds exactly the next chunk's append at the end |
| `RealtimeAgent.AudioOfAppends` | realtime-agent.js:183-190 | reading the audio back off the appends gives the chunks, with none lost, duplicated or reordered |
| `RealtimeAgent.SentOfConcat` | realtime-agent.js:41-79 | the messages sent over two stretches of traffic are those of the first, then those of the second |
| `RealtimeAgent.SentOfWrap` | realtime-agent.js:41-79 | recording messages as traffic and reading them back gives the same messages |
| `RealtimeAgent.NeutralExtension` | realtime-agent.js:48-54 | traffic with no `response.create` and no terminal message leaves the turn state and the separation of turns unchanged |
| `RealtimeAgent.ReleasedAfterCreate` | realtime-agent.js:213-216 | when no response is awaited, every earlier `response.create` was followed by a handled terminal message |
| `RealtimeAgent.NoCreateWithoutRelease` | realtime-agent.js:56-67 | between any two `response.create` messages a `response.completed` or `response.error` was handled |
| `RealtimeAgent.InitialInv` | realtime-agent.js:19-24 | a new session (connecting, nothing buffered or sent, no turn in flight) satisfies the invariant |
| `RealtimeAgent.SendKeepsInv` | realtime-agent.js:48-54 | sending anything but `response.create` on an open session keeps the invariant |
| `RealtimeAgent.SendAudioKeepsInv` | realtime-agent.js:41-68 | `sendAudio` keeps the invariant, including the turn flag agreeing with the traffic |
| `RealtimeAgent.EndSessionKeepsInv` | realtime-agent.js:70-79 | `endSession` keeps the invariant |
| `RealtimeAgent.OpenKeepsInv` | realtime-agent.js:82-192 | the open handler keeps the invariant: `session.update` first, buffer emptied, the flag unchanged |
| `RealtimeAgent.CloseKeepsInv` | realtime-agent.js:257-260 | the close handler keeps the invariant |
| `RealtimeAgent.ReleaseKeepsInv` | realtime-agent.js:213-216 | resetting the turn flag on a terminal message keeps the invariant |
| `RealtimeAgent.MessageKeepsInv` | realtime-agent.js:195-255 | the message handler keeps the invariant for every message, the unparseable one included |
| `RealtimeAgent.SendAudioWhileClosedBuffers` | realtime-agent.js:43-46 | when not open, `sendAudio` appends the chunk to the buffer, sends nothing and leaves the turn flag alone |
| `RealtimeAgent.SendAudioWhileOpen` | realtime-agent.js:48-67 | when open, `sendAudio` sends the append, then `response.create` only when no response is in progress; afterwards one is |
| `RealtimeAgent.SendAllWhileConnecting` | realtime-agent.js:43-46 | any number of chunks sent while connecting are buffered in order and nothing else changes |
| `RealtimeAgent.BufferedAudioFlushedInOrder` | realtime-agent.js:176-192 | chunks buffered before open reach the socket right after `session.update`, each once and in order, and the buffer ends empty |
| `RealtimeAgent.ThreeChunksBeforeOpen` | realtime-agent.js:176-192 | three chunks sent before open go out as `session.update` and then their three appends |
| `RealtimeAgent.TerminalWhileIdle` | realtime-agent.js:213-216 | a terminal message with no response in progress changes nothing but the traffic record |
| `RealtimeAgent.TerminalReleases` | realtime-agent.js:213-216 | `response.completed` and `response.error` reset the turn flag and send nothing |
| `RealtimeAgent.Emission` | realtime-agent.js:223-254 | a message emits at most one event: `"audio"` with an audio payload exactly for the two audio-delta shapes with a truthy payload, and `"lead"` only for an added output item |
| `RealtimeAgent.AudioDeltaEmitsAudio` | realtime-agent.js:223-231 | both audio-delta shapes with a payload emit `"audio"` with the payload unchanged to every audio listener |
| `RealtimeAgent.OnlyAudioDeltasEmitAudio` | realtime-agent.js:223-231 | any other message emits no `"audio"` event |
| `RealtimeAgent.LeadEmittedIff` | realtime-agent.js:233-254 | an output item emits `"lead"` exactly when it is a `capture_lead` function call with arguments that parse, and it carries the parsed value |
| `RealtimeAgent.EndSessionCommitsOnlyWhenOpen` | realtime-agent.js:70-79 | `endSession` sends `commit` only when the session can send, and always calls `close()` |
| `RealtimeAgent.EndSessionTwice` | realtime-agent.js:70-79 | a second `endSession` sends nothing and only repeats the `close()` call |
| `RealtimeAgent.SendAudioAfterEndSessionBuffers` | realtime-agent.js:41-46 | after `endSession`, `sendAudio` still buffers and sends nothing |
| `RealtimeAgent.Session.constructor` | realtime-agent.js:5-24 | a new session is connecting, with nothing buffered or sent and no listeners |
| `RealtimeAgent.Session.On` | realtime-agent.js:26-29 | `on` appends the listener to its event's list and changes nothing else |
| `RealtimeAgent.Session.Emit` | realtime-agent.js:31-39 | `emit` delivers the data to each of the event's listeners in order |
| `RealtimeAgent.Session.SendAudio` | realtime-agent.js:41-68 | `sendAudio` performs its step and keeps the invariant |
| `RealtimeAgent.Session.EndSession` | realtime-agent.js:70-79 | `endSession` performs its step and keeps the invariant |
| `RealtimeAgent.Session.HandleOpen` | realtime-agent.js:82-192 | the open handler's loop sends `session.update`, then one append per buffered chunk in order, and empties the buffer |
| `RealtimeAgent.Session.HandleMessage` | realtime-agent.js:195-255 | the message handler performs its step and keeps the invariant |
| `RealtimeAgent.Session.HandleClose` | realtime-agent.js:257-260 | the close handler clears the open flag and keeps the invariant |
| `CallBridge.MediaFrame` | server.js:68-74 | the frame sent to Twilio is a `media` event stamped with the stream id and carrying the payload unchanged |
| `CallBridge.Bridge.constructor` | server.js:55-77 | a connection creates exactly one fresh session with only the bridge's audio listener and no stream id |
| `CallBridge.Bridge.AudioCallback` | server.js:62-77 | with no stream id the chunk is dropped; otherwise exactly one media frame with the current stream id and the payload unchanged is sent |
| `CallBridge.Bridge.HandleAiMessage` | server.js:62-77 | a Realtime message is handled by the session, and its audio reaches Twilio through the audio listener only once a stream id is set |
| `CallBridge.Bridge.HandleTwilioMessage` | server.js:80-103 | an unparseable message changes nothing; `start` sets or overwrites the stream id; `media` with a payload calls `sendAudio` once; `stop` ends the session, then closes Twilio |
| `CallBridge.Bridge.HandleTwilioClose` | server.js:105-108 | Twilio's `close` ends the session |
| `CallBridge.Bridge.HandleTwilioError` | server.js:110-113 | Twilio's `error` ends the session |
| `TextRules.Lower` | process_onboarding_responses.js:76 | lower-casing keeps the length and leaves no upper-case letter |
| `TextRules.TrimStart` | process_onboarding_responses.js:68 | the result is empty or starts with a non-whitespace character |
| `TextRules.TrimEnd` | process_onboarding_responses.js:68 | the result is empty or ends with a non-whitespace character |
| `TextRules.TrimStartCuts` | process_onboarding_responses.js:68 | trimming the start removes only a leading run of whitespace |
| `TextRules.TrimEndCuts` | process_onboarding_responses.js:68 | trimming the end removes only a trailing run of whitespace |
| `TextRules.Trim` | process_onboarding_responses.js:68 | the result neither starts nor ends with whitespace |
| `TextRules.TrimIsSlice` | process_onboarding_responses.js:68 | the result is a slice of the input with only whitespace cut from either side |
| `TextRules.TrimKeepsTrimmed` | process_onboarding_responses.js:68 | trimming trimmed text changes nothing |
| `TextRules.TrimIdempotent` | process_onboarding_responses.js:68 | trimming twice is trimming once |
| `TextRules.TrimSubstring` | process_onboarding_responses.js:68 | trimming adds no character |
| `TextRules.SplitComma` | process_onboarding_responses.js:92 | `split(',')` gives at least one piece, and no piece holds a comma |
| `TextRules.JoinSplit` | process_onboarding_responses.js:92 | joining the pieces with commas gives back the text |
| `TextRules.SplitJoin` | process_onboarding_responses.js:92 | splitting comma-free pieces joined by commas gives back the pieces |
| `TextRules.SplitConcat` | process_onboarding_responses.js:92 | splitting `a,b` gives the pieces of `a`, then those of `b` |
| `TextRules.SplitWithoutComma` | process_onboarding_responses.js:92 | text with no comma is one piece |
| `TextRules.CleanItem` | process_onboarding_responses.js:92 | a piece yields at most one item, which is non-empty and trimmed |
| `TextRules.CleanItemsShape` | process_onboarding_responses.js:92 | trimming and filtering never adds items, and every item kept is non-empty and trimmed |
| `TextRules.CleanItemsConcat` | process_onboarding_responses.js:92 | trimming and filtering keeps the order of the pieces |
| `TextRules.CleanItemsCommaFree` | process_onboarding_responses.js:92 | items cleaned from comma-free pieces hold no comma |
| `TextRules.ParseList` | process_onboarding_responses.js:91-96 | a missing or empty cell gives `[]`; every item is non-empty, trimmed and comma-free |
| `TextRules.ParseListConcat` | process_onboarding_responses.js:91-96 | the list keeps input order: the items of `a,b` are those of `a`, then those of `b` |
| `TextRules.ParseListPiece` | process_onboarding_responses.js:91-96 | text with no comma yields its trimmed self, or nothing when blank |
| `TextRules.ParseListEmpty` | process_onboarding_responses.js:91-96 | an empty or missing cell gives the empty list |
| `TextRules.Collapse` | process_onboarding_responses.js:77 | the result holds only `[a-z0-9-]` and never two hyphens in a row |
| `TextRules.CollapseAppend` | process_onboarding_responses.js:77 | collapsing splits after any character of `[a-z0-9]`: the rest is collapsed on its own |
| `TextRules.SkipRun` | process_onboarding_responses.js:77 | once a run has begun, further characters outside `[a-z0-9]` add nothing |
| `TextRules.CollapseRunStart` | process_onboarding_responses.js:77 | a run of characters outside `[a-z0-9]` at the start of the text becomes one hyphen |
| `TextRules.CollapseRun` | process_onboarding_responses.js:77 | each maximal run of characters outside `[a-z0-9]` becomes exactly one hyphen, and the text on either side is collapsed on its own |
| `TextRules.StripEdges` | process_onboarding_responses.js:78 | at most one character goes from each end; text with no hyphen at either end is unchanged; collapsed text becomes a slug |
| `TextRules.StripEdgesSlice` | process_onboarding_responses.js:78 | the result is a slice of the input: the first character is cut exactly when it is a hyphen, the last exactly when it is a hyphen other than that first one, and the rest stays in place |
| `TextRules.Slug` | process_onboarding_responses.js:75-78 | the slug holds only `[a-z0-9-]`, has no double hyphen, and neither starts nor ends with one |
| `TextRules.CollapseKeepsSlugs` | process_onboarding_responses.js:77 | collapsing text that is already collapsed changes nothing |
| `TextRules.SlugOfSlug` | process_onboarding_responses.js:75-78 | a slug is its own slug |
| `TextRules.SlugIdempotent` | process_onboarding_responses.js:75-78 | slugging twice is slugging once |
| `TextRules.AlnumConcat` | process_onboarding_responses.js:77 | keeping the ASCII letters `a`–`z` and the digits distributes over concatenation |
| `TextRules.CollapseKeepsAlnum` | process_onboarding_responses.js:77 | collapsing keeps every ASCII letter `a`–`z` and every digit, in order |
| `TextRules.SlugKeepsAlnum` | process_onboarding_responses.js:75-78 | the slug keeps exactly the lower-cased name's ASCII letters `a`–`z` and digits, in order; any other letter is dropped |
| `TextRules.SlugEmptyIff` | process_onboarding_responses.js:75-78 | the slug is empty exactly when the name, lower-cased, has no ASCII letter `a`–`z` and no digit |
| `ClientOnboarding.OrDefault` | dynamic_client_onboarding.js:65-66 | a truthy option is used as is; otherwise the fallback, so the value is never empty |
| `ClientOnboarding.PatternOf` | dynamic_client_onboarding.js:65 | the pattern is never empty: a truthy option is used as is, otherwise `020` |
| `ClientOnboarding.CountryOf` | dynamic_client_onboarding.js:66 | the country is never empty: a truthy option is used as is, otherwise `GB` |
| `ClientOnboarding.WebhookUrl` | dynamic_client_onboarding.js:92-93 | a webhook URL is exactly `https://`, the host, `/` and the route, so both can be read back |
| `ClientOnboarding.WebhooksDiffer` | dynamic_client_onboarding.js:92-93 | the voice and SMS webhooks are different URLs |
| `ClientOnboarding.RequestFor` | dynamic_client_onboarding.js:88-94 | the purchase is of the given number, passes the address and bundle ids through, and has two different `https` webhooks on the public host |
| `ClientOnboarding.FileNameFor` | dynamic_client_onboarding.js:104-112 | the file name is a slug followed by `.json` |
| `ClientOnboarding.FileNameForSlug` | dynamic_client_onboarding.js:104-112 | a business renamed to its slug keeps its file |
| `ClientOnboarding.FileNameForInjective` | dynamic_client_onboarding.js:104-112 | two business names share a file exactly when they share a slug |
| `ClientOnboarding.BareFileName` | dynamic_client_onboarding.js:104-112 | the file is `.json` itself exactly when the lower-cased name has no ASCII letter `a`–`z` and no digit |
| `ClientOnboarding.BareFileNamesCollide` | dynamic_client_onboarding.js:104-112 | a Greek name and a punctuation-only name share the file `.json` |
| `ClientOnboarding.WithPhoneNumber` | dynamic_client_onboarding.js:98-101 | the result is the input with only `phone_number` added or overwritten, set to the number |
| `ClientOnboarding.WithPhoneNumberTwice` | dynamic_client_onboarding.js:98-101 | a later merge overrides an earlier one; merging the same number again changes nothing |
| `ClientOnboarding.OnboardClient` | dynamic_client_onboarding.js:53-120 | the whole outcome, stage by stage (`Onboarded`): missing credentials or host fail before any search; one search with the defaulted country and pattern; a search that throws passes Twilio's error on, an empty result fails with an error naming the pattern, both before any purchase; the first number found is bought with both webhooks, and a failed purchase passes its error on; a `business_name` that is not text fails before any write; otherwise the merged configuration is written to the business's slug file and returned |
| `ClientOnboarding.OnboardedUnique` | dynamic_client_onboarding.js:53-120 | the stage-by-stage description leaves no choice: one result and one sequence of effects meet it for given inputs and Twilio answers |
| `ClientOnboarding.OnboardedWithName` | dynamic_client_onboarding.js:75-119 | with a text `business_name`, onboarding succeeds exactly when a number is found and bought; it then searches, buys the first number and writes the merged configuration, and a failure writes no file |
| `ProcessResponses.TrimmedCell` | process_onboarding_responses.js:68 | a missing cell stays missing, and a present one is trimmed |
| `ProcessResponses.TextField` | process_onboarding_responses.js:100-103 | a text field is its trimmed cell, or `""` when missing |
| `ProcessResponses.ToneOf` | process_onboarding_responses.js:102 | the tone is the trimmed, lower-cased cell, or `professional` when that is blank or missing; it is never blank and holds no upper-case letter |
| `ProcessResponses.CellString` | process_onboarding_responses.js:88 | a present cell's text is kept; a missing cell becomes nine characters that no letter case turns into `yes` |
| `ProcessResponses.EmergencyEnabled` | process_onboarding_responses.js:88 | the flag is set exactly when the cell is present and reads `yes` in any letter case, untrimmed |
| `ProcessResponses.EmergencyExamples` | process_onboarding_responses.js:88 | `" yes"` and a missing cell give false; `YES` and `Yes` give true |
| `ProcessResponses.BuildConfig` | process_onboarding_responses.js:98-107 | the configuration has exactly its eight keys, and `business_name` is the trimmed name |
| `ProcessResponses.BuildConfigFields` | process_onboarding_responses.js:98-107 | each field follows its rule: trimmed text with `""` as default, the tone rule, the `yes` flag, and clean ordered lists that are `[]` for a blank cell |
| `ProcessResponses.BuildConfigFile` | process_onboarding_responses.js:79 | the file the batch checks is the file `onboardClient` writes for that configuration |
| `ProcessResponses.FilesAfter` | process_onboarding_responses.js:79-85 | the files present after some rows include those present before them |
| `ProcessResponses.FilesAfterGrows` | process_onboarding_responses.js:79-85 | files are only added as rows are processed |
| `ProcessResponses.NameOf` | process_onboarding_responses.js:68-72 | a name the loop goes on with is non-empty and trimmed |
| `ProcessResponses.AttemptedRowOutcome` | process_onboarding_responses.js:109-118 | an attempted row succeeds exactly when Twilio finds a London number and sells it; its result is the row's configuration with that number merged in, after a search, a purchase of the first number and a write to the file the batch checked; a failed row writes nothing |
| `ProcessResponses.WrittenStays` | process_onboarding_responses.js:79-85 | a file written by a row is present when every later row is reached |
| `ProcessResponses.HandleRow` | process_onboarding_responses.js:67-119 | a row with no name is skipped; a row whose file exists is skipped; otherwise its configuration is passed to `onboardClient` with `020` and `GB`, the row's result and effects are exactly what `onboardClient` gives (`Onboarded`), and only a success adds its file |
| `ProcessResponses.ProcessSheet` | process_onboarding_responses.js:67-119 | every row is handled, in order, against the files present when it is reached, each attempted row with the full outcome of its own `onboardClient` call against Twilio's answers to that row, so a failed row does not stop later ones and rows can buy different numbers |
| `ProcessResponses.SheetRowOutcome` | process_onboarding_responses.js:109-118 | in a run, each attempted row succeeds exactly when Twilio, as that row meets it, finds a number and sells it, and its result carries the number bought for that row |
| `ProcessResponses.NoDoubleOnboarding` | process_onboarding_responses.js:79-85 | once a row has written its file, every later row with the same file name is skipped, whatever Twilio answers |
| `ProcessResponses.ExistingNeverAttempted` | process_onboarding_responses.js:79-85 | a row whose file existed before the run is always skipped |

## Left out

- Logging. Every `logger` and `console` call only writes text.
- The Realtime socket's `error` handler, which only logs (realtime-agent.js:262-264).
- The contents of the `session.update` message and the tool schema. They are fixed
  configuration and are modelled as one opaque message.
- WebSocket creation, its URL and headers, the Express `/voice` route, TwiML and the HTTP
  upgrade routing. These are transport and framework plumbing.
- JSON parsing and serialising. A decoded message arrives as a value, and `None` stands for
  one that did not parse. Parsing `capture_lead` arguments is a function passed in.
- A decoded message that is not a JSON object (for example `null`), and cells or fields that
  are not strings (a numeric spreadsheet cell, for instance). Every field is treated as an
  optional string.
- `TextRules.Lower`: lower-cases ASCII letters only, where JavaScript's `toLowerCase` also
  folds other Unicode letters.
- `TextRules.Trim`: its whitespace set is the space and `\t` to `\r`, where JavaScript's `trim`
  also strips other Unicode spaces and line terminators.
- What a listener callback does. Listeners are ids, and `emit` records one delivery per
  listener. A callback that throws is caught and logged by `emit`, so every later listener is
  still reached, which the model captures by delivering to all of them.
- Event-loop scheduling and concurrency. Each handler runs to completion as one method.
- Twilio's search and purchase are functions of their arguments within one onboarding. The
  batch gets one pair per row, so what one row's purchase does to the numbers on offer shows
  only as a different pair for the next row; Twilio's own state is not modelled. The
  environment is a value.
- `ClientOnboarding.OnboardClient`: the `clients/` directory creation and the file write are
  taken to succeed. The error raised when `business_name` is not a string is modelled by
  its position (after the purchase, before the write), not by JavaScript's exact message.
- `ProcessResponses.ProcessSheet`: reading the spreadsheet, the missing-file exit, the
  empty-sheet message and the creation of `clients/` happen before the loop and are not part
  of this model. The directory is a set of file names.
- `utils/config-loader.js` is not part of this model. The configuration it loads only feeds
  the opaque `session.update`.
- `utils/email.js.js` and `logger.js` are not part of this model: mail transport and
  console wrapping.

=== FILE: call_bridge.dfy ===
/**
 * The per-call bridge of the server's Twilio Media Stream `connection` handler: one
 * Realtime session per Twilio connection, the `"audio"` listener that forwards the
 * model's audio to the caller, the dispatch of Twilio messages, and the teardown on
 * Twilio `close` and `error`.
 *
 * The Twilio socket is reduced to the calls made on it, recorded with the calls made on
 * the Realtime session in one ordered log of effects. Twilio messages arrive already
 * decoded (`None` when `JSON.parse` threw).
 */
module CallBridge {
  import opened Wrappers
  import opened JsonValue
  import opened RealtimeAgent

  /** `msg.start` of a Twilio `start` message. */
  datatype StartInfo = StartInfo(streamSid: Option<string>)

  /** `msg.media` of a Twilio `media` message. */
  datatype MediaInfo = MediaInfo(payload: Option<string>)

  /** A decoded Twilio message: the fields the handler reads. */
  datatype TwilioMsg = TwilioMsg(event: Option<string>, start: Option<StartInfo>, media: Option<MediaInfo>)

  /** A frame written to the Twilio socket: `{event, streamSid, media: {payload}}`. */
  datatype TwilioFrame = TwilioFrame(event: string, streamSid: string, payload: string)

  /** The bridge's side effects, in the order they happen. */
  datatype Effect =
    | ToTwilio(frame: TwilioFrame)  // twilioWs.send
    | SendToAi(chunk: string)       // aiSession.sendAudio
    | EndAi                         // aiSession.endSession
    | CloseTwilio                   // twilioWs.close

  /** How the Twilio `message` handler ended. */
  datatype Handled =
    | Processed
    | Unparsed  // JSON.parse threw: logged, nothing else happens
    | Threw     // a `start` message without a `start` object: reading its `streamSid` throws

  /** The outgoing media frame for an audio chunk, stamped with the stream id. */
  function MediaFrame(streamSid: string, payload: string): (frame: TwilioFrame)
    ensures frame.event == "media" && frame.streamSid == streamSid && frame.payload == payload
  {
    TwilioFrame("media", streamSid, payload)
  }

  predicate IsEvent(msg: TwilioMsg, name: string)
  {
    msg.event == Some(name)
  }

  /** A `media` message whose `media.payload` is present and non-empty. */
  predicate HasMediaPayload(msg: TwilioMsg)
  {
    IsEvent(msg, "media") && msg.media.Some? && Truthy(msg.media.value.payload)
  }

  class Bridge {
    /** The call's one Realtime session, created before any Twilio message is handled. */
    const ai: Session
    /** The id of the bridge's `"audio"` listener on `ai`. */
    const audioListener: nat
    /** `twilioWs.streamSid` */
    var streamSid: Option<string>
    var effects: seq<Effect>

    ghost predicate Valid()
      reads this, ai
    {
      ai.Valid() && ai.listeners == map["audio" := [audioListener]]
    }

    /** The `connection` handler: starts one Realtime session and registers the audio listener;
        no `"lead"` listener is registered. */
    constructor (audioListener: nat)
      ensures Valid() && fresh(ai)
      ensures ai.State() == OnStep(Initial, "audio", audioListener)
      ensures streamSid == None && effects == []
    {
      var session := new Session();
      session.On("audio", audioListener);
      assert session.listeners == OnStep(Initial, "audio", audioListener).listeners;
      assert ListenersOf(map[], "audio") + [audioListener] == [audioListener];
      assert session.listeners == map["audio" := [audioListener]];
      this.ai := session;
      this.audioListener := audioListener;
      streamSid := None;
      effects := [];
    }

    /** The `"audio"` listener: a chunk arriving before the stream id is known is dropped, not
        queued; afterwards each chunk becomes exactly one media frame with the payload unchanged. */
    method AudioCallback(chunk: string)
      modifies this
      ensures streamSid == old(streamSid)
      ensures !Truthy(streamSid) ==> effects == old(effects)
      ensures Truthy(streamSid) ==> effects == old(effects) + [ToTwilio(MediaFrame(streamSid.value, chunk))]
    {
      if !Truthy(streamSid) {
        return;
      }
      effects := effects + [ToTwilio(MediaFrame(streamSid.value, chunk))];
    }

    /** A Realtime message arrives. The session's only listener is the bridge's audio callback,
        so an `"audio"` emit reaches the callback once and a `"lead"` emit reaches nobody. */
    method HandleAiMessage(m: Option<RealtimeMsg>, parseArgs: string -> Option<Json>)
      requires Valid()
      modifies this, ai
      ensures Valid()
      ensures ai.State() == MessageStep(old(ai.State()), m, parseArgs)
      ensures streamSid == old(streamSid)
      ensures m.Some? && Emission(m.value, parseArgs).Some? && Emission(m.value, parseArgs).value.event == "audio"
        ==> effects == old(effects) +
              (if Truthy(streamSid)
               then [ToTwilio(MediaFrame(streamSid.value, Emission(m.value, parseArgs).value.data.audio))]
               else [])
      ensures !(m.Some? && Emission(m.value, parseArgs).Some? && Emission(m.value, parseArgs).value.event == "audio")
        ==> effects == old(effects)
    {
      var n := |ai.deliveries|;
      ai.HandleMessage(m, parseArgs);
      if n < |ai.deliveries| {
        var d := ai.deliveries[n];
        if d.subscriber == audioListener && d.event == "audio" && d.data.AudioPayload? {
          AudioCallback(d.data.audio);
        }
      }
    }

    /** A Twilio message arrives. `start` sets (or overwrites) the stream id; `media` with a
        payload hands it to the session once; `stop` ends the session, then closes Twilio. */
    method HandleTwilioMessage(m: Option<TwilioMsg>) returns (outcome: Handled)
      requires Valid()
      modifies this, ai
      ensures Valid()
      ensures m.None? ==> outcome == Unparsed
      ensures m.Some? && IsEvent(m.value, "start") && m.value.start.None? ==> outcome == Threw
      ensures outcome != Processed ==>
        streamSid == old(streamSid) && effects == old(effects) && ai.State() == old(ai.State())
      ensures outcome == Processed <==> m.Some? && !(IsEvent(m.value, "start") && m.value.start.None?)
      ensures outcome == Processed && IsEvent(m.value, "start") ==>
        streamSid == m.value.start.value.streamSid && effects == old(effects) && ai.State() == old(ai.State())
      ensures outcome == Processed && HasMediaPayload(m.value) ==>
        streamSid == old(streamSid)
        && effects == old(effects) + [SendToAi(m.value.media.value.payload.value)]
        && ai.State() == SendAudioStep(old(ai.State()), m.value.media.value.payload.value)
      ensures outcome == Processed && IsEvent(m.value, "stop") ==>
        streamSid == old(streamSid)
        && effects == old(effects) + [EndAi, CloseTwilio]
        && ai.State() == EndSessionStep(old(ai.State()))
      ensures (outcome == Processed && !IsEvent(m.value, "start") && !HasMediaPayload(m.value)
               && !IsEvent(m.value, "stop")) ==>
        streamSid == old(streamSid) && effects == old(effects) && ai.State() == old(ai.State())
    {
      if m.None? {
        return Unparsed;
      }
      var msg := m.value;
      if msg.event == Some("start") {
        if msg.start.None? {
          return Threw;
        }
        streamSid := msg.start.value.streamSid;
      }
      if msg.event == Some("media") && msg.media.Some? && Truthy(msg.media.value.payload) {
        ai.SendAudio(msg.media.value.payload.value);
        effects := effects + [SendToAi(msg.media.value.payload.value)];
      }
      if msg.event == Some("stop") {
        ai.EndSession();
        effects := effects + [EndAi];
        effects := effects + [CloseTwilio];
      }
      return Processed;
    }

    /** The Twilio socket's `close` event: ends the Realtime session. */
    method HandleTwilioClose()
      requires Valid()
      modifies this, ai
      ensures Valid()
      ensures streamSid == old(streamSid) && effects == old(effects) + [EndAi]
      ensures ai.State() == EndSessionStep(old(ai.State()))
    {
      ai.EndSession();
      effects := effects + [EndAi];
    }

    /** The Twilio socket's `error` event: logged, then ends the Realtime session. */
    method HandleTwilioError()
      requires Valid()
      modifies this, ai
      ensures Valid()
      ensures streamSid == old(streamSid) && effects == old(effects) + [EndAi]
      ensures ai.State() == EndSessionStep(old(ai.State()))
    {
      ai.EndSession();
      effects := effects + [EndAi];
    }
  }
}

=== FILE: client_onboarding.dfy ===
/**
 * `onboardClient`: checks the environment, searches Twilio for one available number,
 * buys it with the voice and SMS webhooks pointing at the public host, merges the number
 * into the client configuration and writes that configuration to `clients/<slug>.json`.
 *
 * Twilio's search and purchase are oracles passed in as functions; the environment is a
 * value; the file write and the two Twilio calls are recorded, in order, as effects.
 */
module ClientOnboarding {
  import opened Wrappers
  import opened JsonValue
  import opened TextRules

  /** The environment variables `onboardClient` reads. */
  datatype Env = Env(
    accountSid: Option<string>,  // TWILIO_ACCOUNT_SID
    authToken: Option<string>,   // TWILIO_AUTH_TOKEN
    publicHost: Option<string>,  // PUBLIC_HOST
    addressSid: Option<string>,  // TWILIO_ADDRESS_SID, passed through as is
    bundleSid: Option<string>)   // TWILIO_BUNDLE_SID, passed through as is

  datatype Options = Options(pattern: Option<string>, country: Option<string>)

  /** The arguments of `incomingPhoneNumbers.create`. */
  datatype PurchaseRequest = PurchaseRequest(
    phoneNumber: string, addressSid: Option<string>, bundleSid: Option<string>,
    voiceUrl: string, smsUrl: string)

  /** The external effects of one onboarding, in order. */
  datatype Effect =
    | Search(country: string, pattern: string)              // availablePhoneNumbers(country).local.list
    | Purchase(request: PurchaseRequest)                     // incomingPhoneNumbers.create
    | WriteConfig(fileName: string, config: map<string, Json>)  // writeFileSync under clients/

  const DefaultPattern := "020"
  const DefaultCountry := "GB"
  const MissingCredentials := "Twilio credentials are not set in environment variables"
  const MissingHost := "PUBLIC_HOST must be defined in environment variables"
  /** The TypeError raised when `business_name` is not a string and cannot be lower-cased. */
  const BusinessNameNotText := "business_name is not a string"

  function NoNumbers(pattern: string): string
  {
    "No phone numbers available matching pattern: " + pattern
  }

  /** `value || fallback` on an optional string. */
  function OrDefault(o: Option<string>, fallback: string): (r: string)
    ensures Truthy(o) ==> r == o.value
    ensures !Truthy(o) ==> r == fallback
    ensures fallback != "" ==> r != ""
  {
    if Truthy(o) then o.value else fallback
  }

  /** The search pattern: a falsy option (absent or empty) falls back to London's `020`;
      any other value is used unchanged. */
  function PatternOf(opts: Options): (r: string)
    ensures r != ""
    ensures Truthy(opts.pattern) ==> r == opts.pattern.value
    ensures !Truthy(opts.pattern) ==> r == "020"
  {
    OrDefault(opts.pattern, DefaultPattern)
  }

  /** The search country: a falsy option falls back to Great Britain; any other value is used
      unchanged. */
  function CountryOf(opts: Options): (r: string)
    ensures r != ""
    ensures Truthy(opts.country) ==> r == opts.country.value
    ensures !Truthy(opts.country) ==> r == "GB"
  {
    OrDefault(opts.country, DefaultCountry)
  }

  predicate HasCredentials(env: Env)
  {
    Truthy(env.accountSid) && Truthy(env.authToken)
  }

  predicate Configured(env: Env)
  {
    HasCredentials(env) && Truthy(env.publicHost)
  }

  /** `https://<host>/<route>`: the host and the route can be read back from the URL. */
  function WebhookUrl(host: string, route: string): (u: string)
    ensures |u| == 9 + |host| + |route|
    ensures u[..8] == "https://" && u[8..8 + |host|] == host
    ensures u[8 + |host|] == '/' && u[9 + |host|..] == route
  {
    var u := "https://" + host + "/" + route;
    assert u == "https://" + (host + ("/" + route));
    assert u[8..] == host + ("/" + route);
    assert u[8..][..|host|] == host;
    assert u[8 + |host|..] == "/" + route;
    u
  }

  /** The voice and SMS webhooks of the same host are different URLs. */
  lemma WebhooksDiffer(host: string)
    ensures WebhookUrl(host, "voice") != WebhookUrl(host, "sms")
  {
    assert |WebhookUrl(host, "voice")| != |WebhookUrl(host, "sms")|;
  }

  /** `url` is an `https://` URL on `host`. */
  predicate OnHost(url: string, host: string)
  {
    |url| > 8 + |host| && url[..8] == "https://" && url[8..8 + |host|] == host && url[8 + |host|] == '/'
  }

  /** The purchase of `number`, with both webhooks pointing at the public host. */
  function RequestFor(number: string, env: Env): (req: PurchaseRequest)
    requires Truthy(env.publicHost)
    ensures req.phoneNumber == number
    ensures req.addressSid == env.addressSid && req.bundleSid == env.bundleSid
    ensures OnHost(req.voiceUrl, env.publicHost.value) && OnHost(req.smsUrl, env.publicHost.value)
    ensures req.voiceUrl != req.smsUrl
  {
    WebhooksDiffer(env.publicHost.value);
    PurchaseRequest(number, env.addressSid, env.bundleSid,
                    WebhookUrl(env.publicHost.value, "voice"), WebhookUrl(env.publicHost.value, "sms"))
  }

  /** The configuration file of a business: its slug with `.json` appended. */
  function FileNameFor(businessName: string): (f: string)
    ensures |f| >= 5 && f[|f| - 5..] == ".json"
    ensures IsSlug(f[..|f| - 5])
  {
    Slug(businessName) + ".json"
  }

  /** Renaming a business to its own slug keeps its file. */
  lemma FileNameForSlug(businessName: string)
    ensures FileNameFor(Slug(businessName)) == FileNameFor(businessName)
  {
    SlugIdempotent(businessName);
  }

  /** Two business names share a file exactly when they share a slug. */
  lemma FileNameForInjective(a: string, b: string)
    ensures FileNameFor(a) == FileNameFor(b) <==> Slug(a) == Slug(b)
  {
    if FileNameFor(a) == FileNameFor(b) {
      var fa := FileNameFor(a);
      assert fa[..|fa| - 5] == Slug(a);
      assert FileNameFor(b)[..|FileNameFor(b)| - 5] == Slug(b);
    }
  }
  /** A name with no ASCII letter or digit has the empty slug, so its file is `.json` itself;
      every such business shares that one file. */
  lemma BareFileName(businessName: string)
    ensures FileNameFor(businessName) == ".json" <==> Alnum(Lower(businessName)) == ""
  {
    SlugEmptyIff(businessName);
    var f := FileNameFor(businessName);
    if f == ".json" {
      assert f[..|f| - 5] == Slug(businessName);
    }
  }

  /** Two such names: a Greek one and one of punctuation only. */
  lemma BareFileNamesCollide()
    ensures FileNameFor("Ωμ") == FileNameFor("& / !") == ".json"
  {
    BareFileName("Ωμ");
    BareFileName("& / !");
  }


  /** `r` is `cfg` with `phone_number` added or overwritten by a string, and nothing else changed. */
  predicate AddsPhoneNumber(cfg: map<string, Json>, r: map<string, Json>)
  {
    && r.Keys == cfg.Keys + {"phone_number"}
    && r["phone_number"].JStr?
    && forall k :: k in cfg && k != "phone_number" ==> r[k] == cfg[k]
  }

  /** `{...clientConfig, phone_number: number}` */
  function WithPhoneNumber(cfg: map<string, Json>, number: string): (r: map<string, Json>)
    ensures AddsPhoneNumber(cfg, r)
    ensures r["phone_number"] == JStr(number)
  {
    cfg["phone_number" := JStr(number)]
  }

  /** Merging twice keeps only the second number; merging the same number again changes nothing. */
  lemma WithPhoneNumberTwice(cfg: map<string, Json>, first: string, second: string)
    ensures WithPhoneNumber(WithPhoneNumber(cfg, first), second) == WithPhoneNumber(cfg, second)
    ensures WithPhoneNumber(WithPhoneNumber(cfg, first), first) == WithPhoneNumber(cfg, first)
  {
  }

  /** The configuration's `business_name` is a string, so it can be slugged into a file name. */
  predicate NamedConfig(cfg: map<string, Json>)
  {
    "business_name" in cfg && cfg["business_name"].JStr?
  }

  /** The environment is complete and the search, with the defaulted country and pattern,
      returned at least one number. */
  predicate Found(opts: Options, env: Env, search: (string, string) -> Result<seq<string>, string>)
  {
    Configured(env) && search(CountryOf(opts), PatternOf(opts)).Ok?
    && search(CountryOf(opts), PatternOf(opts)).value != []
  }

  /** The first number the search returned: the one that is bought. */
  function Candidate(opts: Options, env: Env, search: (string, string) -> Result<seq<string>, string>): string
    requires Found(opts, env, search)
  {
    search(CountryOf(opts), PatternOf(opts)).value[0]
  }

  /** A number was found and its purchase succeeded. */
  predicate Purchased(opts: Options, env: Env, search: (string, string) -> Result<seq<string>, string>,
                      purchase: PurchaseRequest -> Result<string, string>)
  {
    Found(opts, env, search) && purchase(RequestFor(Candidate(opts, env, search), env)).Ok?
  }

  /** The number Twilio reports as bought. */
  function PurchasedNumber(opts: Options, env: Env, search: (string, string) -> Result<seq<string>, string>,
                           purchase: PurchaseRequest -> Result<string, string>): string
    requires Purchased(opts, env, search, purchase)
  {
    purchase(RequestFor(Candidate(opts, env, search), env)).value
  }

  /** What one `onboardClient` call does, stage by stage: `res` and `effects` are its result
      and its external effects in order. Each stage can fail; an error raised by a stage ends
      the onboarding with that error, and no later stage takes place. */
  predicate Onboarded(cfg: map<string, Json>, opts: Options, env: Env,
                      search: (string, string) -> Result<seq<string>, string>,
                      purchase: PurchaseRequest -> Result<string, string>,
                      res: Result<map<string, Json>, string>, effects: seq<Effect>)
  {
    && |effects| <= 3
    // the environment is checked before anything else
    && (!HasCredentials(env) ==> res == Err(MissingCredentials) && effects == [])
    && (HasCredentials(env) && !Truthy(env.publicHost) ==> res == Err(MissingHost) && effects == [])
    // then exactly one search, with the defaulted country and pattern; a search that throws
    // passes Twilio's error on, an empty one fails naming the pattern
    && (Configured(env) ==> |effects| >= 1 && effects[0] == Search(CountryOf(opts), PatternOf(opts)))
    && (Configured(env) && search(CountryOf(opts), PatternOf(opts)).Err? ==>
          res == Err(search(CountryOf(opts), PatternOf(opts)).error) && |effects| == 1)
    && (Configured(env) && search(CountryOf(opts), PatternOf(opts)) == Ok([]) ==>
          res == Err(NoNumbers(PatternOf(opts))) && |effects| == 1)
    // then exactly one purchase, of the first number found
    && (Found(opts, env, search) ==>
          |effects| >= 2 && effects[1] == Purchase(RequestFor(Candidate(opts, env, search), env)))
    && (Found(opts, env, search) && !Purchased(opts, env, search, purchase) ==>
          res == Err(purchase(RequestFor(Candidate(opts, env, search), env)).error) && |effects| == 2)
    && (Purchased(opts, env, search, purchase) && !NamedConfig(cfg) ==>
          res == Err(BusinessNameNotText) && |effects| == 2)
    // success: the merged configuration is written under the business's file name and returned
    && (res.Ok? <==> Purchased(opts, env, search, purchase) && NamedConfig(cfg))
    && (res.Ok? <==> |effects| == 3)
    && (res.Ok? ==>
          && Purchased(opts, env, search, purchase) && NamedConfig(cfg)
          && res.value == WithPhoneNumber(cfg, PurchasedNumber(opts, env, search, purchase))
          && effects[2] == WriteConfig(FileNameFor(cfg["business_name"].s), res.value))
  }

  /** `Onboarded` leaves no choice: for given inputs and oracles there is exactly one result and
      one sequence of effects that satisfies it. */
  lemma {:induction false} OnboardedUnique(cfg: map<string, Json>, opts: Options, env: Env,
                                          search: (string, string) -> Result<seq<string>, string>,
                                          purchase: PurchaseRequest -> Result<string, string>,
                                          res1: Result<map<string, Json>, string>, effects1: seq<Effect>,
                                          res2: Result<map<string, Json>, string>, effects2: seq<Effect>)
    requires Onboarded(cfg, opts, env, search, purchase, res1, effects1)
    requires Onboarded(cfg, opts, env, search, purchase, res2, effects2)
    ensures res1 == res2 && effects1 == effects2
  {
    if !Configured(env) {
    } else if !Found(opts, env, search) {
      assert |effects1| == 1 && |effects2| == 1;
      assert effects1 == [effects1[0]] && effects2 == [effects2[0]];
    } else if !Purchased(opts, env, search, purchase) || !NamedConfig(cfg) {
      assert |effects1| == 2 && |effects2| == 2;
      assert effects1 == [effects1[0], effects1[1]] && effects2 == [effects2[0], effects2[1]];
    } else {
      assert |effects1| == 3 && |effects2| == 3;
      assert effects1 == [effects1[0], effects1[1], effects1[2]];
      assert effects2 == [effects2[0], effects2[1], effects2[2]];
    }
  }

  /** For a configuration with a text `business_name`, onboarding succeeds exactly when a number is
      found and bought: it then makes one search, one purchase of the first number found and one
      write of the merged configuration. A failed onboarding writes no file. */
  lemma {:induction false} OnboardedWithName(cfg: map<string, Json>, opts: Options, env: Env,
                                            search: (string, string) -> Result<seq<string>, string>,
                                            purchase: PurchaseRequest -> Result<string, string>,
                                            res: Result<map<string, Json>, string>, effects: seq<Effect>)
    requires Onboarded(cfg, opts, env, search, purchase, res, effects)
    requires NamedConfig(cfg)
    ensures res.Ok? <==> Purchased(opts, env, search, purchase)
    ensures res.Ok? ==>
      && res.value == WithPhoneNumber(cfg, PurchasedNumber(opts, env, search, purchase))
      && effects == [Search(CountryOf(opts), PatternOf(opts)),
                     Purchase(RequestFor(Candidate(opts, env, search), env)),
                     WriteConfig(FileNameFor(cfg["business_name"].s), res.value)]
    ensures res.Err? ==> forall k :: 0 <= k < |effects| ==> !effects[k].WriteConfig?
  {
    if res.Ok? {
      assert effects == [effects[0], effects[1], effects[2]];
    } else if Configured(env) {
      assert |effects| <= 2 && effects[0].Search?;
      assert |effects| == 2 ==> effects[1].Purchase?;
    }
  }

  /** `onboardClient(clientConfig, options)` */
  method OnboardClient(cfg: map<string, Json>, opts: Options, env: Env,
                       search: (string, string) -> Result<seq<string>, string>,
                       purchase: PurchaseRequest -> Result<string, string>)
    returns (res: Result<map<string, Json>, string>, effects: seq<Effect>)
    ensures Onboarded(cfg, opts, env, search, purchase, res, effects)
  {
    effects := [];
    if !Truthy(env.accountSid) || !Truthy(env.authToken) {
      return Err(MissingCredentials), effects;
    }
    if !Truthy(env.publicHost) {
      return Err(MissingHost), effects;
    }
    var pattern := OrDefault(opts.pattern, DefaultPattern);
    var country := OrDefault(opts.country, DefaultCountry);

    effects := effects + [Search(country, pattern)];
    var found := search(country, pattern);
    if found.Err? {
      return Err(found.error), effects;
    }
    if |found.value| == 0 {
      return Err(NoNumbers(pattern)), effects;
    }
    var candidate := found.value[0];

    var request := RequestFor(candidate, env);
    effects := effects + [Purchase(request)];
    var purchased := purchase(request);
    if purchased.Err? {
      return Err(purchased.error), effects;
    }

    var updated := WithPhoneNumber(cfg, purchased.value);
    if !("business_name" in cfg && cfg["business_name"].JStr?) {
      return Err(BusinessNameNotText), effects;
    }
    var fileName := FileNameFor(cfg["business_name"].s);
    effects := effects + [WriteConfig(fileName, updated)];
    return Ok(updated), effects;
  }
}

=== FILE: json.dfy ===
/** Parsed JSON values: the lead record handed to listeners and the client configuration objects. */
module JsonValue {

  datatype Json =
    | JNull
    | JBool(b: bool)
    | JNum(n: int)
    | JStr(s: string)
    | JArr(items: seq<Json>)
    | JObj(fields: map<string, Json>)
}

=== FILE: onboarding_batch.dfy ===
/**
 * The row loop of `processSheet`: for each spreadsheet response, skip it when it has no
 * business name or when the business's configuration file already exists; otherwise build
 * the client configuration and onboard it, carrying on with the next row whatever happens.
 *
 * A row is the set of cells `sheet_to_json` produced (`None` for a column the sheet does not
 * have); the `clients/` directory is the set of file names in it.
 */
module ProcessResponses {
  import opened Wrappers
  import opened JsonValue
  import opened TextRules
  import opened ClientOnboarding

  /** The cells of one response that the batch reads. */
  datatype Row = Row(
    businessName: Option<string>,  // Business Name
    industry: Option<string>,      // Industry
    serviceArea: Option<string>,   // Service Area
    tone: Option<string>,          // Tone
    email: Option<string>,         // Email Address
    services: Option<string>,      // Services Offered
    keywords: Option<string>,      // Emergency Keywords
    emergency: Option<string>)     // Emergency Enable

  /** `cell?.toString().trim()` */
  function TrimmedCell(cell: Option<string>): (r: Option<string>)
    ensures r.None? <==> cell.None?
    ensures r.Some? ==> IsTrimmed(r.value)
  {
    if cell.None? then None else Some(Trim(cell.value))
  }

  /** `cell?.toString().trim() || ''` */
  function TextField(cell: Option<string>): (r: string)
    ensures IsTrimmed(r)
    ensures cell.None? ==> r == ""
    ensures cell.Some? ==> r == Trim(cell.value)
  {
    if cell.None? then "" else Trim(cell.value)
  }

  const DefaultTone := "professional"

  /** `cell?.toString().trim().toLowerCase() || 'professional'`: the tone is never blank, never
      holds an upper-case letter, and is the default exactly when the trimmed cell is blank or
      missing. */
  function ToneOf(cell: Option<string>): (r: string)
    ensures r != ""
    ensures forall i :: 0 <= i < |r| ==> !IsUpper(r[i])
    ensures cell.None? || Trim(cell.value) == "" ==> r == DefaultTone
    ensures cell.Some? && Trim(cell.value) != "" ==> r == Lower(Trim(cell.value))
  {
    assert forall i :: 0 <= i < |DefaultTone| ==> !IsUpper(DefaultTone[i]);
    if cell.None? || Lower(Trim(cell.value)) == "" then DefaultTone else Lower(Trim(cell.value))
  }

  /** `String(cell)`: a present cell's text unchanged; a missing cell is the text `undefined`,
      which no letter case makes read `yes`. */
  function CellString(cell: Option<string>): (r: string)
    ensures cell.Some? ==> r == cell.value
    ensures cell.None? ==> |r| == 9 && Lower(r) != "yes"
  {
    if cell.None? then "undefined" else cell.value
  }

  /** `String(row['Emergency Enable']).toLowerCase() === 'yes'`: enabled exactly when the cell is
      present and reads `yes` in any letter case, with no surrounding spaces allowed. */
  predicate EmergencyEnabled(cell: Option<string>)
    ensures EmergencyEnabled(cell) <==>
      cell.Some? && |cell.value| == 3
      && LowerChar(cell.value[0]) == 'y' && LowerChar(cell.value[1]) == 'e' && LowerChar(cell.value[2]) == 's'
  {
    var l := Lower(CellString(cell));
    assert cell.Some? && |cell.value| == 3 ==> l == [l[0], l[1], l[2]];
    l == "yes"
  }

  /** The text is not trimmed first: a leading space turns the flag off; letter case does not. */
  lemma EmergencyExamples()
    ensures !EmergencyEnabled(Some(" yes"))
    ensures !EmergencyEnabled(None)
    ensures EmergencyEnabled(Some("YES")) && EmergencyEnabled(Some("Yes"))
  {
  }

  /** A list of strings as a JSON array. */
  function Strings(items: seq<string>): seq<Json>
  {
    seq(|items|, i requires 0 <= i < |items| => JStr(items[i]))
  }

  /** The keys of every configuration the batch builds. */
  const ConfigKeys: set<string> := {"business_name", "industry", "service_area", "tone", "lead_email",
                                    "emergency_enabled", "emergency_keywords", "services"}

  /** The `clientConfig` object literal for a row whose trimmed business name is `name`. */
  function BuildConfig(name: string, row: Row): (cfg: map<string, Json>)
    ensures cfg.Keys == ConfigKeys
    ensures cfg["business_name"] == JStr(name)
  {
    map["business_name" := JStr(name),
        "industry" := JStr(TextField(row.industry)),
        "service_area" := JStr(TextField(row.serviceArea)),
        "tone" := JStr(ToneOf(row.tone)),
        "lead_email" := JStr(TextField(row.email)),
        "emergency_enabled" := JBool(EmergencyEnabled(row.emergency)),
        "emergency_keywords" := JArr(Strings(ParseList(row.keywords))),
        "services" := JArr(Strings(ParseList(row.services)))]
  }

  /** Every field of a built configuration follows its rule: text fields trimmed (blank or missing
      becomes the empty string), lists of non-empty trimmed comma-free items, `[]` for a blank or
      missing cell. */
  lemma BuildConfigFields(name: string, row: Row)
    ensures var cfg := BuildConfig(name, row);
      && cfg["industry"] == JStr(TextField(row.industry)) && IsTrimmed(cfg["industry"].s)
      && cfg["service_area"] == JStr(TextField(row.serviceArea)) && IsTrimmed(cfg["service_area"].s)
      && cfg["lead_email"] == JStr(TextField(row.email)) && IsTrimmed(cfg["lead_email"].s)
      && cfg["tone"] == JStr(ToneOf(row.tone)) && cfg["tone"].s != ""
      && cfg["emergency_enabled"] == JBool(EmergencyEnabled(row.emergency))
      && cfg["services"] == JArr(Strings(ParseList(row.services)))
      && cfg["emergency_keywords"] == JArr(Strings(ParseList(row.keywords)))
      && (!Truthy(row.services) ==> cfg["services"] == JArr([]))
      && (!Truthy(row.keywords) ==> cfg["emergency_keywords"] == JArr([]))
      && (forall k :: 0 <= k < |cfg["services"].items| ==>
            cfg["services"].items[k].JStr? && cfg["services"].items[k].s != ""
            && IsTrimmed(cfg["services"].items[k].s) && ',' !in cfg["services"].items[k].s)
      && (forall k :: 0 <= k < |cfg["emergency_keywords"].items| ==>
            cfg["emergency_keywords"].items[k].JStr? && cfg["emergency_keywords"].items[k].s != ""
            && IsTrimmed(cfg["emergency_keywords"].items[k].s) && ',' !in cfg["emergency_keywords"].items[k].s)
  {
  }

  /** The configuration a batch row hands to `onboardClient` names the file the batch checked. */
  lemma BuildConfigFile(name: string, row: Row)
    ensures BuildConfig(name, row)["business_name"].JStr?
    ensures FileNameFor(BuildConfig(name, row)["business_name"].s) == FileNameFor(name)
  {
  }

  /** London numbers in Great Britain. */
  const BatchOptions := Options(Some("020"), Some("GB"))

  /** What became of one row. */
  datatype RowOutcome =
    | SkippedNoName
    | SkippedExisting(fileName: string)
    | Attempted(fileName: string, config: map<string, Json>, result: Result<map<string, Json>, string>,
                effects: seq<Effect>)

  /** A row onboarded successfully, so its file now exists. */
  predicate Wrote(out: RowOutcome)
  {
    out.Attempted? && out.result.Ok?
  }

  /** The files of `clients/` after the rows with these outcomes: those there at the start and
      those written since. */
  function FilesAfter(existing: set<string>, outs: seq<RowOutcome>): (files: set<string>)
    ensures existing <= files
  {
    if outs == [] then existing
    else FilesAfter(existing, outs[..|outs| - 1])
         + (if Wrote(outs[|outs| - 1]) then {outs[|outs| - 1].fileName} else {})
  }

  /** Files are only added, never removed. */
  lemma {:induction false} FilesAfterGrows(existing: set<string>, outs: seq<RowOutcome>, i: nat)
    requires i <= |outs|
    ensures FilesAfter(existing, outs[..i]) <= FilesAfter(existing, outs)
    decreases |outs| - i
  {
    if i < |outs| {
      FilesAfterGrows(existing, outs[..|outs| - 1], i);
      assert outs[..|outs| - 1][..i] == outs[..i];
    } else {
      assert outs[..i] == outs;
    }
  }

  /** The trimmed business name of a row, when it has a non-empty one. */
  function NameOf(row: Row): (r: Option<string>)
    ensures r.Some? ==> r.value != "" && IsTrimmed(r.value)
  {
    var n := TrimmedCell(row.businessName);
    if n.Some? && n.value != "" then n else None
  }

  /** Which way the loop sends one row, given the files present when the row is reached: a row
      without a name and a row whose file exists are skipped; any other is attempted with the
      configuration built from it. */
  predicate RowRouted(row: Row, files: set<string>, out: RowOutcome)
  {
    match NameOf(row)
    case None => out == SkippedNoName
    case Some(name) =>
      if FileNameFor(name) in files then out == SkippedExisting(FileNameFor(name))
      else out.Attempted? && out.fileName == FileNameFor(name) && out.config == BuildConfig(name, row)
  }

  /** How the loop treats one row: it is routed as above, and an attempted row is onboarded with
      the batch options, its outcome being exactly what `onboardClient` does with that
      configuration, the environment and Twilio's answers. */
  ghost predicate RowHandled(row: Row, files: set<string>, out: RowOutcome, env: Env,
                             search: (string, string) -> Result<seq<string>, string>,
                             purchase: PurchaseRequest -> Result<string, string>)
  {
    && RowRouted(row, files, out)
    && (out.Attempted? ==> Onboarded(out.config, BatchOptions, env, search, purchase, out.result, out.effects))
  }

  /** An attempted row succeeds exactly when Twilio finds a London number and sells it. It then
      searches, buys the first number found, and writes the row's own configuration with that
      number merged in, under the file name the batch checked. A row that fails writes nothing. */
  lemma AttemptedRowOutcome(row: Row, files: set<string>, out: RowOutcome, env: Env,
                            search: (string, string) -> Result<seq<string>, string>,
                            purchase: PurchaseRequest -> Result<string, string>)
    requires RowHandled(row, files, out, env, search, purchase)
    requires out.Attempted?
    ensures out.result.Ok? <==> Purchased(BatchOptions, env, search, purchase)
    ensures out.result.Ok? ==>
      && out.result.value == WithPhoneNumber(out.config, PurchasedNumber(BatchOptions, env, search, purchase))
      && out.effects == [Search("GB", "020"), Purchase(RequestFor(Candidate(BatchOptions, env, search), env)),
                         WriteConfig(out.fileName, out.result.value)]
    ensures out.result.Err? ==> forall k :: 0 <= k < |out.effects| ==> !out.effects[k].WriteConfig?
  {
    var name := NameOf(row).value;
    assert FileNameFor(name) !in files;
    BuildConfigFile(name, row);
    OnboardedWithName(out.config, BatchOptions, env, search, purchase, out.result, out.effects);
  }

  /** One pass of the loop body: the two `continue` skips, then the configuration and the
      onboarding, whose failure is caught so that it ends only this row. */
  method HandleRow(row: Row, files: set<string>, env: Env,
                   search: (string, string) -> Result<seq<string>, string>,
                   purchase: PurchaseRequest -> Result<string, string>)
    returns (out: RowOutcome, files': set<string>)
    ensures RowHandled(row, files, out, env, search, purchase)
    ensures files' == files + (if Wrote(out) then {out.fileName} else {})
  {
    files' := files;
    var name := TrimmedCell(row.businessName);
    if name.None? || name.value == "" {
      return SkippedNoName, files';
    }
    var fileName := FileNameFor(name.value);
    if fileName in files {
      return SkippedExisting(fileName), files';
    }
    var config := BuildConfig(name.value, row);
    var result, effects := OnboardClient(config, BatchOptions, env, search, purchase);
    out := Attempted(fileName, config, result, effects);
    assert RowRouted(row, files, out);
    if result.Ok? {
      // onboardClient wrote the merged configuration to `fileName`
      BuildConfigFile(name.value, row);
      OnboardedWithName(config, BatchOptions, env, search, purchase, result, effects);
      assert effects[2] == WriteConfig(fileName, result.value);
      files' := files' + {fileName};
    }
  }

  /** The rows handled so far, followed by one more handled row. */
  lemma HandledExtend(rows: seq<Row>, existing: set<string>, outs: seq<RowOutcome>, out: RowOutcome, env: Env,
                      search: nat -> ((string, string) -> Result<seq<string>, string>),
                      purchase: nat -> (PurchaseRequest -> Result<string, string>))
    requires |outs| < |rows|
    requires forall k :: 0 <= k < |outs| ==>
      RowHandled(rows[k], FilesAfter(existing, outs[..k]), outs[k], env, search(k), purchase(k))
    requires RowHandled(rows[|outs|], FilesAfter(existing, outs), out, env, search(|outs|), purchase(|outs|))
    ensures forall k :: 0 <= k <= |outs| ==>
      RowHandled(rows[k], FilesAfter(existing, (outs + [out])[..k]), (outs + [out])[k], env, search(k), purchase(k))
    ensures FilesAfter(existing, outs + [out]) == FilesAfter(existing, outs) + (if Wrote(out) then {out.fileName} else {})
  {
    var next := outs + [out];
    assert next[..|outs|] == outs;
    forall k | 0 <= k <= |outs|
      ensures RowHandled(rows[k], FilesAfter(existing, next[..k]), next[k], env, search(k), purchase(k))
    {
      if k < |outs| {
        assert next[..k] == outs[..k] && next[k] == outs[k];
      }
    }
  }

  /** `processSheet`'s loop. Every row is handled in order, a failed onboarding included; a row is
      onboarded only when its file is not yet present, and a successful onboarding adds its file.
      Twilio is live and answers each row afresh (a number bought for one row is no longer
      offered to the next), so row `i` meets Twilio's search and purchase as `search(i)` and
      `purchase(i)`. */
  method ProcessSheet(rows: seq<Row>, existing: set<string>, env: Env,
                      search: nat -> ((string, string) -> Result<seq<string>, string>),
                      purchase: nat -> (PurchaseRequest -> Result<string, string>))
    returns (outcomes: seq<RowOutcome>, files: set<string>)
    ensures |outcomes| == |rows|
    ensures forall i :: 0 <= i < |rows| ==>
      RowHandled(rows[i], FilesAfter(existing, outcomes[..i]), outcomes[i], env, search(i), purchase(i))
    ensures files == FilesAfter(existing, outcomes)
  {
    outcomes := [];
    files := existing;
    for i := 0 to |rows|
      invariant |outcomes| == i
      invariant forall k :: 0 <= k < i ==>
        RowHandled(rows[k], FilesAfter(existing, outcomes[..k]), outcomes[k], env, search(k), purchase(k))
      invariant files == FilesAfter(existing, outcomes)
    {
      var out;
      out, files := HandleRow(rows[i], files, env, search(i), purchase(i));
      HandledExtend(rows, existing, outcomes, out, env, search, purchase);
      outcomes := outcomes + [out];
    }
  }

  /** Within a run, each attempted row succeeds exactly when Twilio, as that row meets it, finds a
      number and sells it, and its result carries the number bought for that row. */
  lemma SheetRowOutcome(rows: seq<Row>, existing: set<string>, outcomes: seq<RowOutcome>, env: Env,
                        search: nat -> ((string, string) -> Result<seq<string>, string>),
                        purchase: nat -> (PurchaseRequest -> Result<string, string>), i: nat)
    requires |outcomes| == |rows|
    requires forall k :: 0 <= k < |rows| ==>
      RowHandled(rows[k], FilesAfter(existing, outcomes[..k]), outcomes[k], env, search(k), purchase(k))
    requires i < |rows| && outcomes[i].Attempted?
    ensures outcomes[i].result.Ok? <==> Purchased(BatchOptions, env, search(i), purchase(i))
    ensures outcomes[i].result.Ok? ==>
      outcomes[i].result.value == WithPhoneNumber(outcomes[i].config, PurchasedNumber(BatchOptions, env, search(i), purchase(i)))
  {
    AttemptedRowOutcome(rows[i], FilesAfter(existing, outcomes[..i]), outcomes[i], env, search(i), purchase(i));
  }

  /** A file written by row `i` is present when every later row is reached. */
  lemma WrittenStays(existing: set<string>, outs: seq<RowOutcome>, i: nat, j: nat)
    requires i < j <= |outs|
    requires Wrote(outs[i])
    ensures outs[i].fileName in FilesAfter(existing, outs[..j])
  {
    assert outs[..j][..i + 1] == outs[..i + 1];
    assert outs[..i + 1][..i] == outs[..i];
    FilesAfterGrows(existing, outs[..j], i + 1);
  }

  /** Within one run no business is onboarded twice: once a row has written its file, every
      later row with the same file name is skipped. */
  lemma NoDoubleOnboarding(rows: seq<Row>, existing: set<string>, outcomes: seq<RowOutcome>, i: nat, j: nat)
    requires |outcomes| == |rows|
    requires forall k :: 0 <= k < |rows| ==> RowRouted(rows[k], FilesAfter(existing, outcomes[..k]), outcomes[k])
    requires i < j < |rows|
    requires Wrote(outcomes[i])
    requires NameOf(rows[j]).Some? && FileNameFor(NameOf(rows[j]).value) == outcomes[i].fileName
    ensures outcomes[j] == SkippedExisting(outcomes[i].fileName)
  {
    WrittenStays(existing, outcomes, i, j);
  }

  /** A file present before the run is never overwritten: its rows are all skipped. */
  lemma ExistingNeverAttempted(rows: seq<Row>, existing: set<string>, outcomes: seq<RowOutcome>, j: nat)
    requires |outcomes| == |rows|
    requires forall k :: 0 <= k < |rows| ==> RowRouted(rows[k], FilesAfter(existing, outcomes[..k]), outcomes[k])
    requires j < |rows|
    requires NameOf(rows[j]).Some? && FileNameFor(NameOf(rows[j]).value) in existing
    ensures outcomes[j] == SkippedExisting(FileNameFor(NameOf(rows[j]).value))
  {
  }
}

=== FILE: realtime_agent.dfy ===
/**
 * The per-call Realtime session object built by `startRealtimeSession`.
 *
 * The WebSocket is reduced to its `readyState`, the log of messages written to it
 * (`sent`) and the number of `close()` calls. JSON parsing is an oracle: a handled
 * message arrives already decoded (`None` when `JSON.parse` threw), and the lead's
 * argument string is parsed by a function passed in. Listener callbacks are subscriber
 * ids; `emit` records one `Delivery` per listener it calls.
 *
 * Each socket handler (`open`, `message`, `close`) runs to completion, so each one is a
 * single method. Every method is specified by a step function on `SessionState`, and
 * the lemmas below state what the source promises about those steps.
 */
module RealtimeAgent {
  import opened Wrappers
  import opened JsonValue

  /** The `readyState` of the Realtime WebSocket. */
  datatype ReadyState = Connecting | Open | Closing | Closed

  /** Messages the session writes to the Realtime socket. */
  datatype Outgoing =
    | SessionUpdate               // the configuration push; its body is constant data
    | AppendAudio(audio: string)  // input_audio_buffer.append
    | ResponseCreate              // response.create
    | CommitAudio                 // input_audio_buffer.commit

  /** The `item` of a `response.output_item.added` message, as far as the handler reads it. */
  datatype OutputItem = OutputItem(itemType: Option<string>, name: Option<string>, arguments: Option<string>)

  /** A decoded Realtime message: the fields the handler reads. */
  datatype RealtimeMsg = RealtimeMsg(
    msgType: Option<string>,
    audio: Option<string>,
    delta: Option<string>,
    item: Option<OutputItem>)

  /** What `emit` hands to a listener. */
  datatype Payload = AudioPayload(audio: string) | LeadPayload(lead: Json)

  /** One listener call made by `emit`. */
  datatype Delivery = Delivery(subscriber: nat, event: string, data: Payload)

  /** One `emit(event, data)` call. */
  datatype Emitted = Emitted(event: string, data: Payload)

  /** The traffic that matters for turn-taking: every message sent, and every
      `response.completed` / `response.error` message handled. */
  datatype Wire = Sent(msg: Outgoing) | Released

  const ResponseCompleted := "response.completed"
  const ResponseError := "response.error"
  const OutputAudioDelta := "response.output_audio.delta"
  const AudioDelta := "response.audio.delta"
  const OutputItemAdded := "response.output_item.added"
  const CaptureLead := "capture_lead"

  // ---------------------------------------------------------------- listeners

  function ListenersOf(listeners: map<string, seq<nat>>, event: string): seq<nat>
  {
    if event in listeners then listeners[event] else []
  }

  /** The deliveries of one `emit`: the listeners `ids`, each called once with the same data. */
  function Fanout(ids: seq<nat>, event: string, data: Payload): seq<Delivery>
  {
    if ids == [] then [] else [Delivery(ids[0], event, data)] + Fanout(ids[1..], event, data)
  }

  lemma {:induction false} FanoutConcat(a: seq<nat>, b: seq<nat>, event: string, data: Payload)
    ensures Fanout(a + b, event, data) == Fanout(a, event, data) + Fanout(b, event, data)
    decreases |a|
  {
    if a == [] {
      assert a + b == b;
    } else {
      FanoutConcat(a[1..], b, event, data);
      assert (a + b)[0] == a[0] && (a + b)[1..] == a[1..] + b;
    }
  }

  /** `emit` calls every listener registered for the event, in registration order, each
      exactly once and with the data unchanged. */
  lemma {:induction false} FanoutAt(ids: seq<nat>, event: string, data: Payload, k: nat)
    requires k < |ids|
    ensures |Fanout(ids, event, data)| == |ids|
    ensures Fanout(ids, event, data)[k] == Delivery(ids[k], event, data)
    decreases |ids|
  {
    if k > 0 {
      FanoutAt(ids[1..], event, data, k - 1);
    } else if |ids| > 1 {
      FanoutAt(ids[1..], event, data, 0);
    }
  }

  // ---------------------------------------------------------------- outgoing audio

  /** One `input_audio_buffer.append` per chunk, in order. */
  function Appends(chunks: seq<string>): seq<Outgoing>
  {
    if chunks == [] then [] else [AppendAudio(chunks[0])] + Appends(chunks[1..])
  }

  lemma {:induction false} AppendsConcat(a: seq<string>, b: seq<string>)
    ensures Appends(a + b) == Appends(a) + Appends(b)
    decreases |a|
  {
    if a == [] {
      assert a + b == b;
    } else {
      AppendsConcat(a[1..], b);
      assert (a + b)[0] == a[0] && (a + b)[1..] == a[1..] + b;
    }
  }

  lemma {:induction false} AppendsLength(chunks: seq<string>)
    ensures |Appends(chunks)| == |chunks|
    decreases |chunks|
  {
    if chunks != [] {
      AppendsLength(chunks[1..]);
    }
  }

  /** The pending queue grown by one chunk gives one more append at the end. */
  lemma FlushOne(p: seq<string>, i: nat)
    requires i < |p|
    ensures Appends(p[..i + 1]) == Appends(p[..i]) + [AppendAudio(p[i])]
    ensures Wrap(Appends(p[..i + 1])) == Wrap(Appends(p[..i])) + [Sent(AppendAudio(p[i]))]
  {
    AppendsConcat(p[..i], [p[i]]);
    assert p[..i + 1] == p[..i] + [p[i]];
    assert Appends([p[i]]) == [AppendAudio(p[i])];
  }

  lemma {:induction false} AppendsAt(chunks: seq<string>, k: nat)
    requires k < |chunks|
    ensures |Appends(chunks)| == |chunks| && Appends(chunks)[k] == AppendAudio(chunks[k])
    decreases |chunks|
  {
    if k > 0 {
      AppendsAt(chunks[1..], k - 1);
    } else if |chunks| > 1 {
      AppendsAt(chunks[1..], 0);
    }
  }

  /** The audio carried by a run of messages, read back off the wire. */
  function AudioOf(msgs: seq<Outgoing>): seq<string>
  {
    if msgs == [] then []
    else (if msgs[0].AppendAudio? then [msgs[0].audio] else []) + AudioOf(msgs[1..])
  }

  /** Reading the appends back gives exactly the chunks: none lost, none duplicated, none reordered. */
  lemma {:induction false} AudioOfAppends(chunks: seq<string>)
    ensures AudioOf(Appends(chunks)) == chunks
    decreases |chunks|
  {
    if chunks != [] {
      AudioOfAppends(chunks[1..]);
      assert Appends(chunks)[1..] == Appends(chunks[1..]);
    }
  }

  // ---------------------------------------------------------------- turn-taking

  function Wrap(msgs: seq<Outgoing>): seq<Wire>
  {
    seq(|msgs|, i requires 0 <= i < |msgs| => Sent(msgs[i]))
  }

  /** The messages sent, read off the traffic record. */
  function SentOf(w: seq<Wire>): seq<Outgoing>
  {
    if w == [] then [] else (if w[0].Sent? then [w[0].msg] else []) + SentOf(w[1..])
  }

  lemma {:induction false} SentOfConcat(w: seq<Wire>, v: seq<Wire>)
    ensures SentOf(w + v) == SentOf(w) + SentOf(v)
    decreases |w|
  {
    if w == [] {
      assert w + v == v;
    } else {
      SentOfConcat(w[1..], v);
      assert (w + v)[0] == w[0] && (w + v)[1..] == w[1..] + v;
    }
  }

  lemma {:induction false} SentOfWrap(msgs: seq<Outgoing>)
    ensures SentOf(Wrap(msgs)) == msgs
    decreases |msgs|
  {
    if msgs != [] {
      SentOfWrap(msgs[1..]);
      assert Wrap(msgs)[1..] == Wrap(msgs[1..]);
    }
  }

  /** A `response.create` has been sent and no terminal response message handled since. */
  ghost function AwaitingResponse(w: seq<Wire>): bool
  {
    if w == [] then false
    else if w[|w| - 1] == Released then false
    else if w[|w| - 1] == Sent(ResponseCreate) then true
    else AwaitingResponse(w[..|w| - 1])
  }

  /** Every `response.create` is sent while no earlier one is still awaiting its response. */
  ghost predicate TurnsSeparated(w: seq<Wire>)
  {
    w == [] ||
    (TurnsSeparated(w[..|w| - 1]) &&
     (w[|w| - 1] == Sent(ResponseCreate) ==> !AwaitingResponse(w[..|w| - 1])))
  }

  /** Traffic that neither requests nor releases a turn. */
  ghost predicate TurnNeutral(v: seq<Wire>)
  {
    forall k :: 0 <= k < |v| ==> v[k] != Released && v[k] != Sent(ResponseCreate)
  }

  lemma {:induction false} NeutralExtension(w: seq<Wire>, v: seq<Wire>)
    requires TurnNeutral(v)
    ensures AwaitingResponse(w + v) == AwaitingResponse(w)
    ensures TurnsSeparated(w) ==> TurnsSeparated(w + v)
    decreases |v|
  {
    if v == [] {
      assert w + v == w;
    } else {
      var v' := v[..|v| - 1];
      assert TurnNeutral(v');
      NeutralExtension(w, v');
      assert (w + v)[..|w + v| - 1] == w + v';
      assert (w + v)[|w + v| - 1] == v[|v| - 1];
      assert v[|v| - 1] != Released && v[|v| - 1] != Sent(ResponseCreate);
    }
  }

  lemma {:induction false} ReleasedAfterCreate(w: seq<Wire>, i: nat)
    requires !AwaitingResponse(w)
    requires i < |w| && w[i] == Sent(ResponseCreate)
    ensures exists k :: i < k < |w| && w[k] == Released
    decreases |w|
  {
    var last := w[|w| - 1];
    if last != Released {
      assert i < |w| - 1;
      ReleasedAfterCreate(w[..|w| - 1], i);
      var k :| i < k < |w| - 1 && w[..|w| - 1][k] == Released;
      assert w[k] == Released;
    }
  }

  /** Two `response.create` messages always have a handled `response.completed` or
      `response.error` message between them. */
  lemma {:induction false} NoCreateWithoutRelease(w: seq<Wire>, i: nat, j: nat)
    requires TurnsSeparated(w)
    requires i < j < |w|
    requires w[i] == Sent(ResponseCreate) && w[j] == Sent(ResponseCreate)
    ensures exists k :: i < k < j && w[k] == Released
    decreases |w|
  {
    var prefix := w[..|w| - 1];
    if j < |w| - 1 {
      NoCreateWithoutRelease(prefix, i, j);
      var k :| i < k < j && prefix[k] == Released;
      assert w[k] == Released;
    } else {
      ReleasedAfterCreate(prefix, i);
      var k :| i < k < |prefix| && prefix[k] == Released;
      assert w[k] == Released;
    }
  }

  // ---------------------------------------------------------------- session state and steps

  datatype SessionState = SessionState(
    readyState: ReadyState,
    isOpen: bool,
    pendingAudio: seq<string>,
    responseInProgress: bool,
    listeners: map<string, seq<nat>>,
    sent: seq<Outgoing>,
    closeCalls: nat,
    deliveries: seq<Delivery>,
    wire: seq<Wire>)

  /** A fresh session: socket connecting, nothing buffered, no turn in flight, no listeners. */
  const Initial := SessionState(Connecting, false, [], false, map[], [], 0, [], [])

  /** What every reachable session satisfies. */
  ghost predicate Inv(s: SessionState)
  {
    && (s.readyState == Open ==> s.isOpen && s.pendingAudio == [])
    && (s.readyState == Connecting ==> !s.isOpen && s.sent == [])
    && (s.isOpen ==> s.sent != [])
    && (s.sent != [] ==> s.sent[0] == SessionUpdate)
    && SentOf(s.wire) == s.sent
    && s.responseInProgress == AwaitingResponse(s.wire)
    && TurnsSeparated(s.wire)
  }

  /** The guard of `sendAudio` and `endSession`. */
  predicate CanSend(s: SessionState)
  {
    s.isOpen && s.readyState == Open
  }

  /** Sends one message. */
  function Send(s: SessionState, m: Outgoing): SessionState
  {
    s.(sent := s.sent + [m], wire := s.wire + [Sent(m)])
  }

  /** `on(event, cb)` */
  function OnStep(s: SessionState, event: string, id: nat): SessionState
  {
    s.(listeners := s.listeners[event := ListenersOf(s.listeners, event) + [id]])
  }

  /** `emit(event, data)` */
  function EmitStep(s: SessionState, event: string, data: Payload): SessionState
  {
    s.(deliveries := s.deliveries + Fanout(ListenersOf(s.listeners, event), event, data))
  }

  /** `sendAudio(chunk)` */
  function SendAudioStep(s: SessionState, chunk: string): SessionState
  {
    if !CanSend(s) then s.(pendingAudio := s.pendingAudio + [chunk])
    else if s.responseInProgress then Send(s, AppendAudio(chunk))
    else Send(Send(s, AppendAudio(chunk)), ResponseCreate).(responseInProgress := true)
  }

  /** `ws.close()`: a connecting or open socket starts closing; otherwise nothing changes. */
  function CloseCalled(r: ReadyState): ReadyState
  {
    if r == Connecting || r == Open then Closing else r
  }

  /** `endSession()` */
  function EndSessionStep(s: SessionState): SessionState
  {
    var s1 := if CanSend(s) then Send(s, CommitAudio) else s;
    s1.(readyState := CloseCalled(s.readyState), closeCalls := s.closeCalls + 1)
  }

  /** The socket's `open` event and its handler. */
  function OpenStep(s: SessionState): SessionState
  {
    s.(readyState := Open, isOpen := true, pendingAudio := [],
       sent := s.sent + [SessionUpdate] + Appends(s.pendingAudio),
       wire := s.wire + [Sent(SessionUpdate)] + Wrap(Appends(s.pendingAudio)))
  }

  /** The socket's `close` event and its handler. */
  function CloseStep(s: SessionState): SessionState
  {
    s.(readyState := Closed, isOpen := false)
  }

  predicate IsTerminal(msg: RealtimeMsg)
  {
    msg.msgType == Some(ResponseCompleted) || msg.msgType == Some(ResponseError)
  }

  /** The `emit` a message causes, if any. At most one applies, as the message types differ. */
  function Emission(msg: RealtimeMsg, parseArgs: string -> Option<Json>): (r: Option<Emitted>)
    ensures r.Some? ==>
      (r.value.event == "audio" && r.value.data.AudioPayload?) || (r.value.event == "lead" && r.value.data.LeadPayload?)
    // only the two audio-delta shapes, with a truthy payload, emit `"audio"`
    ensures r.Some? && r.value.event == "audio" <==>
      (msg.msgType == Some(OutputAudioDelta) && Truthy(msg.audio))
      || (msg.msgType == Some(AudioDelta) && Truthy(msg.delta))
    // only an added output item emits `"lead"`
    ensures r.Some? && r.value.event == "lead" ==> msg.msgType == Some(OutputItemAdded)
  {
    if msg.msgType == Some(OutputAudioDelta) && Truthy(msg.audio) then
      Some(Emitted("audio", AudioPayload(msg.audio.value)))
    else if msg.msgType == Some(AudioDelta) && Truthy(msg.delta) then
      Some(Emitted("audio", AudioPayload(msg.delta.value)))
    else if msg.msgType == Some(OutputItemAdded) && msg.item.Some?
      && msg.item.value.itemType == Some("function_call")
      && msg.item.value.name == Some(CaptureLead) && Truthy(msg.item.value.arguments) then
      match parseArgs(msg.item.value.arguments.value)
      case Some(lead) => Some(Emitted("lead", LeadPayload(lead)))
      case None => None
    else None
  }

  /** The terminal-message part of the `message` handler. */
  function ReleaseStep(s: SessionState): SessionState
  {
    s.(responseInProgress := false, wire := s.wire + [Released])
  }

  /** The socket's `message` event and its handler; `None` is a message `JSON.parse` rejected. */
  function MessageStep(s: SessionState, m: Option<RealtimeMsg>, parseArgs: string -> Option<Json>): SessionState
  {
    match m
    case None => s
    case Some(msg) =>
      var s1 := if IsTerminal(msg) then ReleaseStep(s) else s;
      match Emission(msg, parseArgs)
      case None => s1
      case Some(e) => EmitStep(s1, e.event, e.data)
  }

  // ---------------------------------------------------------------- invariant preservation

  lemma InitialInv()
    ensures Inv(Initial)
  {
  }

  lemma SendKeepsInv(s: SessionState, m: Outgoing)
    requires Inv(s) && CanSend(s) && m != ResponseCreate
    ensures Inv(Send(s, m))
  {
    SentOfConcat(s.wire, [Sent(m)]);
    NeutralExtension(s.wire, [Sent(m)]);
  }

  lemma SendAudioKeepsInv(s: SessionState, chunk: string)
    requires Inv(s)
    ensures Inv(SendAudioStep(s, chunk))
  {
    if CanSend(s) {
      var s1 := Send(s, AppendAudio(chunk));
      SendKeepsInv(s, AppendAudio(chunk));
      if !s.responseInProgress {
        var w := s1.wire + [Sent(ResponseCreate)];
        SentOfConcat(s1.wire, [Sent(ResponseCreate)]);
        assert w[..|w| - 1] == s1.wire;
      }
    }
  }

  lemma EndSessionKeepsInv(s: SessionState)
    requires Inv(s)
    ensures Inv(EndSessionStep(s))
  {
    if CanSend(s) {
      SendKeepsInv(s, CommitAudio);
    }
  }

  lemma OpenKeepsInv(s: SessionState)
    requires Inv(s) && s.readyState == Connecting
    ensures Inv(OpenStep(s))
  {
    var t := OpenStep(s);
    var head := s.wire + [Sent(SessionUpdate)];
    var tail := Wrap(Appends(s.pendingAudio));
    assert SentOf(t.wire) == t.sent by {
      SentOfConcat(head, tail);
      SentOfConcat(s.wire, [Sent(SessionUpdate)]);
      SentOfWrap(Appends(s.pendingAudio));
      assert SentOf([Sent(SessionUpdate)]) == [SessionUpdate];
    }
    assert TurnNeutral(tail) by {
      AppendsLength(s.pendingAudio);
      forall k | 0 <= k < |tail|
        ensures tail[k] != Released && tail[k] != Sent(ResponseCreate)
      {
        AppendsAt(s.pendingAudio, k);
      }
    }
    assert TurnNeutral([Sent(SessionUpdate)]);
    NeutralExtension(s.wire, [Sent(SessionUpdate)]);
    NeutralExtension(head, tail);
    assert t.sent[0] == SessionUpdate;
  }

  lemma CloseKeepsInv(s: SessionState)
    requires Inv(s)
    ensures Inv(CloseStep(s))
  {
  }

  lemma ReleaseKeepsInv(s: SessionState)
    requires Inv(s)
    ensures Inv(ReleaseStep(s))
  {
    var w := s.wire + [Released];
    SentOfConcat(s.wire, [Released]);
    assert w[..|w| - 1] == s.wire;
  }

  lemma MessageKeepsInv(s: SessionState, m: Option<RealtimeMsg>, parseArgs: string -> Option<Json>)
    requires Inv(s)
    ensures Inv(MessageStep(s, m, parseArgs))
  {
    if m.Some? && IsTerminal(m.value) {
      ReleaseKeepsInv(s);
    }
  }

  // ---------------------------------------------------------------- properties of the steps

  /** Before the socket opens, `sendAudio` only buffers: the chunk goes to the end of the
      pending queue and nothing is sent. */
  lemma SendAudioWhileClosedBuffers(s: SessionState, chunk: string)
    requires !s.isOpen || s.readyState != Open
    ensures SendAudioStep(s, chunk).pendingAudio == s.pendingAudio + [chunk]
    ensures SendAudioStep(s, chunk).sent == s.sent
    ensures SendAudioStep(s, chunk).responseInProgress == s.responseInProgress
  {
  }

  /** While open, `sendAudio` always sends the chunk, and asks for a response right after it
      only when no response is in progress; afterwards one is. */
  lemma SendAudioWhileOpen(s: SessionState, chunk: string)
    requires Inv(s) && s.readyState == Open
    ensures SendAudioStep(s, chunk).sent ==
      s.sent + [AppendAudio(chunk)] + (if s.responseInProgress then [] else [ResponseCreate])
    ensures SendAudioStep(s, chunk).responseInProgress
    ensures SendAudioStep(s, chunk).pendingAudio == []
  {
  }

  /** `sendAudio` applied to each chunk in turn. */
  function SendAll(s: SessionState, chunks: seq<string>): SessionState
    decreases |chunks|
  {
    if chunks == [] then s else SendAll(SendAudioStep(s, chunks[0]), chunks[1..])
  }

  lemma {:induction false} SendAllWhileConnecting(s: SessionState, chunks: seq<string>)
    requires s.readyState == Connecting
    ensures SendAll(s, chunks) == s.(pendingAudio := s.pendingAudio + chunks)
    decreases |chunks|
  {
    if chunks != [] {
      var s1 := SendAudioStep(s, chunks[0]);
      SendAllWhileConnecting(s1, chunks[1..]);
      assert s1.pendingAudio + chunks[1..] == s.pendingAudio + chunks;
    }
  }

  /** Chunks handed to `sendAudio` before the socket opens reach the socket after the
      `session.update`, each once and in their original order, and the buffer is left empty. */
  lemma BufferedAudioFlushedInOrder(s: SessionState, chunks: seq<string>)
    requires Inv(s) && s.readyState == Connecting
    ensures OpenStep(SendAll(s, chunks)).sent == [SessionUpdate] + Appends(s.pendingAudio + chunks)
    ensures AudioOf(OpenStep(SendAll(s, chunks)).sent) == s.pendingAudio + chunks
    ensures OpenStep(SendAll(s, chunks)).pendingAudio == []
  {
    SendAllWhileConnecting(s, chunks);
    var all := s.pendingAudio + chunks;
    AudioOfAppends(all);
    assert ([SessionUpdate] + Appends(all))[1..] == Appends(all);
  }

  /** Three chunks sent while connecting, then the socket opens. */
  lemma ThreeChunksBeforeOpen()
    ensures OpenStep(SendAll(Initial, ["a1", "a2", "a3"])).sent ==
      [SessionUpdate, AppendAudio("a1"), AppendAudio("a2"), AppendAudio("a3")]
  {
    BufferedAudioFlushedInOrder(Initial, ["a1", "a2", "a3"]);
    assert [] + ["a1", "a2", "a3"] == ["a1", "a2", "a3"];
    assert Appends(["a1", "a2", "a3"]) == [AppendAudio("a1")] + Appends(["a2", "a3"]);
    assert Appends(["a2", "a3"]) == [AppendAudio("a2")] + Appends(["a3"]);
  }

  /** A terminal response message resets the turn flag; when no response was in progress the
      session is otherwise left as it was. */
  lemma TerminalWhileIdle(s: SessionState, msg: RealtimeMsg, parseArgs: string -> Option<Json>)
    requires IsTerminal(msg) && !s.responseInProgress
    ensures MessageStep(s, Some(msg), parseArgs) == s.(wire := s.wire + [Released])
  {
  }

  lemma TerminalReleases(s: SessionState, msg: RealtimeMsg, parseArgs: string -> Option<Json>)
    requires IsTerminal(msg)
    ensures !MessageStep(s, Some(msg), parseArgs).responseInProgress
    ensures MessageStep(s, Some(msg), parseArgs).sent == s.sent
  {
  }

  /** Both audio-delta shapes emit one `"audio"` event carrying the payload unchanged: each
      audio listener is called once with it. */
  lemma AudioDeltaEmitsAudio(s: SessionState, msg: RealtimeMsg, parseArgs: string -> Option<Json>)
    requires (msg.msgType == Some(OutputAudioDelta) && Truthy(msg.audio))
          || (msg.msgType == Some(AudioDelta) && Truthy(msg.delta))
    ensures var chunk := if msg.msgType == Some(OutputAudioDelta) then msg.audio.value else msg.delta.value;
      MessageStep(s, Some(msg), parseArgs).deliveries ==
        s.deliveries + Fanout(ListenersOf(s.listeners, "audio"), "audio", AudioPayload(chunk))
  {
  }

  /** A message that is neither kind of audio delta emits no `"audio"` event. */
  lemma OnlyAudioDeltasEmitAudio(msg: RealtimeMsg, parseArgs: string -> Option<Json>)
    requires !(msg.msgType == Some(OutputAudioDelta) && Truthy(msg.audio))
    requires !(msg.msgType == Some(AudioDelta) && Truthy(msg.delta))
    ensures Emission(msg, parseArgs).None? || Emission(msg, parseArgs).value.event == "lead"
  {
  }

  /** A `capture_lead` function call whose arguments parse emits exactly one `"lead"` event with
      the parsed value; when the arguments do not parse, or the name or arguments are missing,
      nothing is emitted. */
  lemma LeadEmittedIff(msg: RealtimeMsg, parseArgs: string -> Option<Json>)
    requires msg.msgType == Some(OutputItemAdded)
    ensures Emission(msg, parseArgs).Some? <==>
      msg.item.Some? && msg.item.value.itemType == Some("function_call")
      && msg.item.value.name == Some(CaptureLead) && Truthy(msg.item.value.arguments)
      && parseArgs(msg.item.value.arguments.value).Some?
    ensures Emission(msg, parseArgs).Some? ==>
      Emission(msg, parseArgs) == Some(Emitted("lead", LeadPayload(parseArgs(msg.item.value.arguments.value).value)))
  {
  }

  /** `endSession` sends `commit` only when the session can send, and always closes. */
  lemma EndSessionCommitsOnlyWhenOpen(s: SessionState)
    ensures EndSessionStep(s).sent == s.sent + (if CanSend(s) then [CommitAudio] else [])
    ensures EndSessionStep(s).closeCalls == s.closeCalls + 1
    ensures EndSessionStep(s).readyState != Open && EndSessionStep(s).readyState != Connecting
  {
  }

  /** A second `endSession` sends nothing and leaves the socket state alone; it only repeats
      the `close()` call. */
  lemma EndSessionTwice(s: SessionState)
    ensures EndSessionStep(EndSessionStep(s)) ==
      EndSessionStep(s).(closeCalls := EndSessionStep(s).closeCalls + 1)
  {
  }

  /** After `endSession`, `sendAudio` still buffers its chunk; nothing flushes the buffer again. */
  lemma SendAudioAfterEndSessionBuffers(s: SessionState, chunk: string)
    ensures var e := EndSessionStep(s);
      SendAudioStep(e, chunk).pendingAudio == e.pendingAudio + [chunk] && SendAudioStep(e, chunk).sent == e.sent
  {
  }

  // ---------------------------------------------------------------- the session object

  class Session {
    var readyState: ReadyState
    var isOpen: bool
    var pendingAudio: seq<string>
    var responseInProgress: bool
    var listeners: map<string, seq<nat>>
    var sent: seq<Outgoing>
    var closeCalls: nat
    var deliveries: seq<Delivery>
    ghost var wire: seq<Wire>

    ghost function State(): SessionState
      reads this
    {
      SessionState(readyState, isOpen, pendingAudio, responseInProgress, listeners,
                   sent, closeCalls, deliveries, wire)
    }

    ghost predicate Valid()
      reads this
    {
      Inv(State())
    }

    /** `startRealtimeSession`: the socket is created at once and starts connecting. */
    constructor ()
      ensures Valid() && State() == Initial
    {
      readyState, isOpen, pendingAudio, responseInProgress := Connecting, false, [], false;
      listeners, sent, closeCalls, deliveries := map[], [], 0, [];
      wire := [];
    }

    /** `on(event, cb)`: appends the listener to the event's list. */
    method On(event: string, id: nat)
      requires Valid()
      modifies this
      ensures Valid() && State() == OnStep(old(State()), event, id)
    {
      listeners := listeners[event := ListenersOf(listeners, event) + [id]];
    }

    /** `emit(event, data)`: calls each listener of the event in order; a listener that throws
        is caught and logged, so the remaining ones are still called. */
    method Emit(event: string, data: Payload)
      modifies this
      ensures State() == EmitStep(old(State()), event, data)
    {
      var ids := ListenersOf(listeners, event);
      var i := 0;
      while i < |ids|
        invariant 0 <= i <= |ids|
        invariant State() == old(State()).(deliveries := old(deliveries) + Fanout(ids[..i], event, data))
      {
        FanoutConcat(ids[..i], [ids[i]], event, data);
        assert ids[..i + 1] == ids[..i] + [ids[i]];
        deliveries := deliveries + [Delivery(ids[i], event, data)];
        i := i + 1;
      }
      assert ids[..i] == ids;
    }

    /** `sendAudio(chunk)` */
    method SendAudio(chunk: string)
      requires Valid()
      modifies this
      ensures Valid() && State() == SendAudioStep(old(State()), chunk)
    {
      ghost var s := State();
      SendAudioKeepsInv(s, chunk);
      if !isOpen || readyState != Open {
        pendingAudio := pendingAudio + [chunk];
        assert State() == SendAudioStep(s, chunk);
        return;
      }
      sent := sent + [AppendAudio(chunk)];
      wire := wire + [Sent(AppendAudio(chunk))];
      if !responseInProgress {
        sent := sent + [ResponseCreate];
        wire := wire + [Sent(ResponseCreate)];
        responseInProgress := true;
      }
      assert State() == SendAudioStep(s, chunk);
    }

    /** `endSession()` */
    method EndSession()
      requires Valid()
      modifies this
      ensures Valid() && State() == EndSessionStep(old(State()))
    {
      ghost var s := State();
      EndSessionKeepsInv(s);
      if isOpen && readyState == Open {
        sent := sent + [CommitAudio];
        wire := wire + [Sent(CommitAudio)];
      }
      closeCalls := closeCalls + 1;
      readyState := CloseCalled(readyState);
      assert State() == EndSessionStep(s);
    }

    /** The socket opens (the library sets `readyState` to OPEN, then runs the handler): push the
        session configuration, then flush the buffered chunks one message each. */
    method HandleOpen()
      requires Valid() && readyState == Connecting
      modifies this
      ensures Valid() && State() == OpenStep(old(State()))
    {
      ghost var s := State();
      OpenKeepsInv(s);
      readyState := Open;
      isOpen := true;
      sent := sent + [SessionUpdate];
      wire := wire + [Sent(SessionUpdate)];
      ghost var sent0, wire0 := sent, wire;
      if |pendingAudio| > 0 {
        var i := 0;
        while i < |pendingAudio|
          invariant 0 <= i <= |pendingAudio|
          invariant readyState == Open && isOpen && pendingAudio == s.pendingAudio
          invariant responseInProgress == s.responseInProgress && listeners == s.listeners
          invariant closeCalls == s.closeCalls && deliveries == s.deliveries
          invariant sent == sent0 + Appends(pendingAudio[..i])
          invariant wire == wire0 + Wrap(Appends(pendingAudio[..i]))
        {
          var chunk := pendingAudio[i];
          FlushOne(pendingAudio, i);
          sent := sent + [AppendAudio(chunk)];
          wire := wire + [Sent(AppendAudio(chunk))];
          i := i + 1;
        }
        assert pendingAudio[..i] == pendingAudio;
        pendingAudio := [];
      } else {
        assert Appends(pendingAudio) == [];
        assert Wrap([]) == [];
        assert sent == sent0 + Appends(pendingAudio);
        assert wire == wire0 + Wrap(Appends(pendingAudio));
      }
      assert State() == OpenStep(s);
    }

    /** A message arrives on the socket. */
    method HandleMessage(m: Option<RealtimeMsg>, parseArgs: string -> Option<Json>)
      requires Valid()
      modifies this
      ensures Valid() && State() == MessageStep(old(State()), m, parseArgs)
    {
      ghost var s := State();
      MessageKeepsInv(s, m, parseArgs);
      if m.None? {
        return;
      }
      var msg := m.value;
      if msg.msgType == Some(ResponseCompleted) || msg.msgType == Some(ResponseError) {
        responseInProgress := false;
        wire := wire + [Released];
      }
      ghost var s1 := State();
      assert s1 == if IsTerminal(msg) then ReleaseStep(s) else s;
      if msg.msgType == Some(OutputAudioDelta) && Truthy(msg.audio) {
        Emit("audio", AudioPayload(msg.audio.value));
      }
      if msg.msgType == Some(AudioDelta) && Truthy(msg.delta) {
        Emit("audio", AudioPayload(msg.delta.value));
      }
      if msg.msgType == Some(OutputItemAdded) && msg.item.Some? && msg.item.value.itemType == Some("function_call") {
        var fc := msg.item.value;
        if fc.name == Some(CaptureLead) && Truthy(fc.arguments) {
          var lead := parseArgs(fc.arguments.value);
          if lead.Some? {
            Emit("lead", LeadPayload(lead.value));
          }
        }
      }
      assert State() == MessageStep(s, m, parseArgs);
    }

    /** The socket closes. */
    method HandleClose()
      requires Valid()
      modifies this
      ensures Valid() && State() == CloseStep(old(State()))
    {
      isOpen := false;
      readyState := Closed;
    }
  }
}

=== FILE: text_rules.dfy ===
/**
 * String rules shared by the two onboarding scripts: ASCII lower-casing, `trim`,
 * `split(',')`, the comma-list parser and the business-name slug.
 *
 * Characters are Unicode scalar values, but the case mapping and the whitespace
 * set are restricted to ASCII.
 */
module TextRules {
  import opened Wrappers

  // ---------------------------------------------------------------- lower case

  predicate IsUpper(c: char)
  {
    'A' <= c <= 'Z'
  }

  function LowerChar(c: char): char
  {
    if IsUpper(c) then (c as int + 32) as char else c
  }

  /** `toLowerCase` on ASCII letters; every other character is kept. */
  function Lower(s: string): (r: string)
    ensures |r| == |s|
    ensures forall i :: 0 <= i < |s| ==> r[i] == LowerChar(s[i])
    ensures forall i :: 0 <= i < |r| ==> !IsUpper(r[i])
  {
    seq(|s|, i requires 0 <= i < |s| => LowerChar(s[i]))
  }

  // ---------------------------------------------------------------- trim

  /** The whitespace `trim` removes: space, tab, line feed, vertical tab, form feed, carriage return. */
  predicate IsSpace(c: char)
  {
    c == ' ' || '\t' <= c <= '\r'
  }

  predicate AllSpace(s: string)
  {
    forall i :: 0 <= i < |s| ==> IsSpace(s[i])
  }

  /** Neither end is whitespace. */
  predicate IsTrimmed(t: string)
  {
    t == [] || (!IsSpace(t[0]) && !IsSpace(t[|t| - 1]))
  }

  function TrimStart(s: string): (r: string)
    ensures r == [] || !IsSpace(r[0])
  {
    if s != [] && IsSpace(s[0]) then TrimStart(s[1..]) else s
  }

  function TrimEnd(s: string): (r: string)
    ensures r == [] || !IsSpace(r[|r| - 1])
  {
    if s != [] && IsSpace(s[|s| - 1]) then TrimEnd(s[..|s| - 1]) else s
  }

  lemma {:induction false} TrimStartCuts(s: string)
    ensures |TrimStart(s)| <= |s| && TrimStart(s) == s[|s| - |TrimStart(s)|..]
    ensures AllSpace(s[..|s| - |TrimStart(s)|])
    decreases |s|
  {
    if s != [] && IsSpace(s[0]) {
      var p := s[1..];
      TrimStartCuts(p);
      var n := |TrimStart(p)|;
      assert TrimStart(s) == TrimStart(p);
      assert p[|p| - n..] == s[|s| - n..];
      assert s[..|s| - n] == [s[0]] + p[..|p| - n];
    }
  }

  lemma {:induction false} TrimEndCuts(s: string)
    ensures |TrimEnd(s)| <= |s| && TrimEnd(s) == s[..|TrimEnd(s)|]
    ensures AllSpace(s[|TrimEnd(s)|..])
    decreases |s|
  {
    if s != [] && IsSpace(s[|s| - 1]) {
      var p := s[..|s| - 1];
      TrimEndCuts(p);
      var n := |TrimEnd(p)|;
      assert TrimEnd(s) == TrimEnd(p);
      assert p[..n] == s[..n];
      assert s[n..] == p[n..] + [s[|s| - 1]];
    }
  }

  /** `trim`: cuts whitespace off both ends. */
  function Trim(s: string): (r: string)
    ensures IsTrimmed(r)
  {
    var a := TrimStart(s);
    var r := TrimEnd(a);
    assert r == [] || !IsSpace(r[0]) by {
      TrimEndCuts(a);
    }
    r
  }

  /** The trimmed text is a slice of the input, and only whitespace lies outside it. */
  lemma TrimIsSlice(s: string)
    ensures exists i, j :: 0 <= i <= j <= |s| && Trim(s) == s[i..j] && AllSpace(s[..i]) && AllSpace(s[j..])
  {
    var a := TrimStart(s);
    var r := TrimEnd(a);
    TrimStartCuts(s);
    TrimEndCuts(a);
    var i := |s| - |a|;
    assert r == s[i..i + |r|];
    assert AllSpace(s[i + |r|..]) by {
      assert s[i + |r|..] == a[|r|..];
    }
  }

  lemma {:induction false} TrimKeepsTrimmed(t: string)
    requires IsTrimmed(t)
    ensures Trim(t) == t
  {
    assert TrimStart(t) == t;
    assert TrimEnd(t) == t;
  }

  /** `trim` is idempotent. */
  lemma TrimIdempotent(s: string)
    ensures Trim(Trim(s)) == Trim(s)
  {
    TrimKeepsTrimmed(Trim(s));
  }

  lemma TrimSubstring(s: string, c: char)
    requires c in Trim(s)
    ensures c in s
  {
    TrimIsSlice(s);
    var i, j :| 0 <= i <= j <= |s| && Trim(s) == s[i..j] && AllSpace(s[..i]) && AllSpace(s[j..]);
    var k :| 0 <= k < |Trim(s)| && Trim(s)[k] == c;
    assert s[i + k] == c;
  }

  // ---------------------------------------------------------------- split(',')

  /** `split(',')`: always at least one piece; no piece holds a comma. */
  function SplitComma(s: string): (parts: seq<string>)
    ensures |parts| >= 1
    ensures forall k :: 0 <= k < |parts| ==> ',' !in parts[k]
    decreases |s|
  {
    if s == [] then [""]
    else
      var rest := SplitComma(s[1..]);
      if s[0] == ',' then [""] + rest
      else [[s[0]] + rest[0]] + rest[1..]
  }

  /** `join(',')`, the inverse of `SplitComma`. */
  function JoinComma(parts: seq<string>): string
    requires |parts| >= 1
  {
    if |parts| == 1 then parts[0] else parts[0] + "," + JoinComma(parts[1..])
  }

  lemma {:induction false} JoinSplit(s: string)
    ensures JoinComma(SplitComma(s)) == s
    decreases |s|
  {
    if s != [] {
      var rest := SplitComma(s[1..]);
      JoinSplit(s[1..]);
      if s[0] == ',' {
        assert SplitComma(s)[1..] == rest;
      } else {
        var parts := SplitComma(s);
        if |rest| == 1 {
          assert parts == [[s[0]] + rest[0]];
        } else {
          assert parts[1..] == rest[1..];
          assert JoinComma(rest) == rest[0] + "," + JoinComma(rest[1..]);
        }
      }
    }
  }

  lemma {:induction false} SplitJoin(parts: seq<string>)
    requires |parts| >= 1
    requires forall k :: 0 <= k < |parts| ==> ',' !in parts[k]
    ensures SplitComma(JoinComma(parts)) == parts
    decreases |parts|, |parts[0]|
  {
    var p := parts[0];
    if p == [] {
      if |parts| > 1 {
        SplitJoin(parts[1..]);
        assert JoinComma(parts) == "," + JoinComma(parts[1..]);
        assert JoinComma(parts)[1..] == JoinComma(parts[1..]);
      }
    } else {
      var shorter := [p[1..]] + parts[1..];
      assert p[0] != ',' by { assert p[0] in parts[0]; }
      forall k | 0 <= k < |shorter| ensures ',' !in shorter[k] {
        if k != 0 {
          assert shorter[k] == parts[k];
        }
      }
      SplitJoin(shorter);
      assert JoinComma(parts) == [p[0]] + JoinComma(shorter);
      assert JoinComma(parts)[1..] == JoinComma(shorter);
      assert [p[0]] + shorter[0] == p;
      assert shorter[1..] == parts[1..];
      assert parts == [[p[0]] + shorter[0]] + shorter[1..];
    }
  }

  /** Splitting distributes over a comma. */
  lemma {:induction false} SplitConcat(a: string, b: string)
    ensures SplitComma(a + "," + b) == SplitComma(a) + SplitComma(b)
    decreases |a|
  {
    var s := a + "," + b;
    if a == [] {
      assert s[0] == ',' && s[1..] == b;
    } else {
      assert s[0] == a[0] && s[1..] == a[1..] + "," + b;
      SplitConcat(a[1..], b);
      var left, right := SplitComma(a[1..]), SplitComma(b);
      var rest := SplitComma(s[1..]);
      assert rest == left + right;
      if a[0] != ',' {
        assert rest[0] == left[0];
        assert rest[1..] == left[1..] + right;
        assert SplitComma(s) == [[a[0]] + left[0]] + (left[1..] + right);
        assert SplitComma(a) == [[a[0]] + left[0]] + left[1..];
      }
    }
  }

  lemma {:induction false} SplitWithoutComma(s: string)
    requires ',' !in s
    ensures SplitComma(s) == [s]
    decreases |s|
  {
    if s != [] {
      SplitWithoutComma(s[1..]);
      assert [s[0]] + s[1..] == s;
    }
  }

  // ---------------------------------------------------------------- comma lists

  /** One piece after `.map(trim).filter(Boolean)`: its trimmed text, or nothing when blank. */
  function CleanItem(piece: string): (items: seq<string>)
    ensures |items| <= 1
    ensures forall k :: 0 <= k < |items| ==> items[k] != "" && IsTrimmed(items[k])
  {
    var t := Trim(piece);
    if t == "" then [] else [t]
  }

  /** `.map(trim).filter(Boolean)` */
  function CleanItems(parts: seq<string>): seq<string>
  {
    if parts == [] then [] else CleanItem(parts[0]) + CleanItems(parts[1..])
  }

  lemma {:induction false} CleanItemsShape(parts: seq<string>)
    ensures |CleanItems(parts)| <= |parts|
    ensures forall k :: 0 <= k < |CleanItems(parts)| ==>
      CleanItems(parts)[k] != "" && IsTrimmed(CleanItems(parts)[k])
    decreases |parts|
  {
    if parts != [] {
      CleanItemsShape(parts[1..]);
    }
  }

  /** One step of `.map(trim).filter(Boolean)`: the first piece's item, then the rest's. */
  lemma CleanItemsCons(parts: seq<string>)
    requires parts != []
    ensures CleanItems(parts) == CleanItem(parts[0]) + CleanItems(parts[1..])
  {
  }

  lemma {:induction false} CleanItemsConcat(p: seq<string>, q: seq<string>)
    ensures CleanItems(p + q) == CleanItems(p) + CleanItems(q)
    decreases |p|
  {
    if p == [] {
      assert p + q == q;
    } else {
      var pq := p + q;
      assert pq[0] == p[0];
      assert pq[1..] == p[1..] + q;
      CleanItemsConcat(p[1..], q);
      CleanItemsCons(pq);
      CleanItemsCons(p);
      var h, t, u := CleanItem(p[0]), CleanItems(p[1..]), CleanItems(q);
      assert h + (t + u) == (h + t) + u;
    }
  }

  lemma {:induction false} CleanItemsCommaFree(parts: seq<string>)
    requires forall k :: 0 <= k < |parts| ==> ',' !in parts[k]
    ensures forall k :: 0 <= k < |CleanItems(parts)| ==> ',' !in CleanItems(parts)[k]
    decreases |parts|
  {
    if parts != [] {
      CleanItemsCommaFree(parts[1..]);
      if ',' in Trim(parts[0]) {
        TrimSubstring(parts[0], ',');
      }
    }
  }

  /** `text.split(',').map(s => s.trim()).filter(Boolean)` */
  function ParseListText(text: string): (items: seq<string>)
  {
    CleanItems(SplitComma(text))
  }

  /** `cell ? cell.split(',').map(trim).filter(Boolean) : []`: every item is non-empty, trimmed and
      holds no comma; a missing or empty cell gives the empty list. */
  function ParseList(cell: Option<string>): (items: seq<string>)
    ensures !Truthy(cell) ==> items == []
    ensures forall k :: 0 <= k < |items| ==> items[k] != "" && IsTrimmed(items[k]) && ',' !in items[k]
  {
    if Truthy(cell) then
      CleanItemsShape(SplitComma(cell.value));
      CleanItemsCommaFree(SplitComma(cell.value));
      ParseListText(cell.value)
    else []
  }

  /** The items of `a,b` are the items of `a` followed by the items of `b`: input order is kept
      and nothing is lost or repeated. */
  lemma ParseListConcat(a: string, b: string)
    ensures ParseListText(a + "," + b) == ParseListText(a) + ParseListText(b)
  {
    SplitConcat(a, b);
    CleanItemsConcat(SplitComma(a), SplitComma(b));
  }

  /** A piece without a comma gives its trimmed text, or nothing when that is blank. */
  lemma ParseListPiece(s: string)
    requires ',' !in s
    ensures ParseListText(s) == CleanItem(s)
  {
    SplitWithoutComma(s);
    assert CleanItems([s]) == CleanItem(s) + CleanItems([]);
  }

  /** An empty cell parses to the empty list by either branch of the source's conditional. */
  lemma ParseListEmpty()
    ensures ParseListText("") == [] && ParseList(Some("")) == [] && ParseList(None) == []
  {
  }

  // ---------------------------------------------------------------- slug

  predicate IsSlugChar(c: char)
  {
    'a' <= c <= 'z' || '0' <= c <= '9'
  }

  predicate NoDoubleHyphen(t: string)
  {
    forall i :: 0 <= i < |t| - 1 ==> !(t[i] == '-' && t[i + 1] == '-')
  }

  /** The shape of every slug: only `[a-z0-9-]`, no `--`, no hyphen at either end. */
  predicate IsSlug(t: string)
  {
    && (forall i :: 0 <= i < |t| ==> IsSlugChar(t[i]) || t[i] == '-')
    && NoDoubleHyphen(t)
    && (t != [] ==> t[0] != '-' && t[|t| - 1] != '-')
  }

  /** `.replace(/[^a-z0-9]+/g, '-')`: each maximal run of characters outside `[a-z0-9]` becomes
      one hyphen. `afterRun` says the character before `s` already belonged to such a run. */
  function Collapse(s: string, afterRun: bool): (r: string)
    ensures forall i :: 0 <= i < |r| ==> IsSlugChar(r[i]) || r[i] == '-'
    ensures NoDoubleHyphen(r)
    ensures afterRun && r != [] ==> r[0] != '-'
    decreases |s|
  {
    if s == [] then []
    else if IsSlugChar(s[0]) then [s[0]] + Collapse(s[1..], false)
    else if afterRun then Collapse(s[1..], true)
    else "-" + Collapse(s[1..], true)
  }

  /** `.replace(/^-|-$/g, '')`: drops one leading and one trailing hyphen. Applied to the
      output of `Collapse`, whose hyphens never come two in a row, it leaves a slug. */
  function StripEdges(t: string): (r: string)
    ensures |t| - 2 <= |r| <= |t|
    ensures t != [] && t[0] != '-' && t[|t| - 1] != '-' ==> r == t
    ensures (forall i :: 0 <= i < |t| ==> IsSlugChar(t[i]) || t[i] == '-') && NoDoubleHyphen(t) ==> IsSlug(r)
  {
    var a := if t != [] && t[0] == '-' then t[1..] else t;
    assert NoDoubleHyphen(t) ==> NoDoubleHyphen(a) && (a != [] ==> a[0] != '-');
    if a != [] && a[|a| - 1] == '-' then
      assert NoDoubleHyphen(a) && |a| >= 2 ==> a[|a| - 2] != '-';
      a[..|a| - 1]
    else a
  }

  /** Only the edges are cut and the rest stays in place: the first character goes exactly when it
      is a hyphen, and the last exactly when it is a hyphen other than that first one. */
  lemma {:induction false} StripEdgesSlice(t: string)
    ensures exists i, j :: 0 <= i <= 1 && i <= j && |t| - 1 <= j <= |t| && StripEdges(t) == t[i..j]
                           && (i == 1 <==> t != [] && t[0] == '-')
                           && (j < |t| <==> |t| >= 2 && t[|t| - 1] == '-')
  {
    var i := if t != [] && t[0] == '-' then 1 else 0;
    var a := t[i..];
    var j := if a != [] && a[|a| - 1] == '-' then |t| - 1 else |t|;
    assert a != [] ==> a[|a| - 1] == t[|t| - 1];
    assert j < |t| ==> a[..|a| - 1] == t[i..j];
    assert j == |t| ==> a == t[i..j];
    assert StripEdges(t) == t[i..j];
  }

  /** The file-name slug of a business name. */
  function Slug(name: string): (r: string)
    ensures IsSlug(r)
  {
    StripEdges(Collapse(Lower(name), false))
  }

  lemma {:induction false} CollapseKeepsSlugs(t: string, afterRun: bool)
    requires forall i :: 0 <= i < |t| ==> IsSlugChar(t[i]) || t[i] == '-'
    requires NoDoubleHyphen(t)
    requires afterRun && t != [] ==> t[0] != '-'
    ensures Collapse(t, afterRun) == t
    decreases |t|
  {
    if t != [] {
      CollapseKeepsSlugs(t[1..], !IsSlugChar(t[0]));
      assert [t[0]] + t[1..] == t;
    }
  }

  /** A run of characters outside `[a-z0-9]` with `[a-z0-9]` (or an end of the text) on both sides
      becomes exactly one hyphen, and the text on either side is collapsed on its own. */
  lemma {:induction false} CollapseRun(a: string, run: string, b: string)
    requires a == [] || IsSlugChar(a[|a| - 1])
    requires run != [] && forall k :: 0 <= k < |run| ==> !IsSlugChar(run[k])
    requires b == [] || IsSlugChar(b[0])
    ensures Collapse(a + run + b, false) == Collapse(a, false) + "-" + Collapse(b, false)
  {
    var c := run + b;
    ConcatAssoc(a, run, b);
    CollapseRunStart(run, b);
    if a == [] {
      assert a + c == c;
    } else {
      CollapseAppend(a, c, false);
      ConcatAssoc(Collapse(a, false), "-", Collapse(b, false));
    }
  }

  lemma ConcatAssoc(x: string, y: string, z: string)
    ensures x + y + z == x + (y + z)
  {
  }

  /** A run at the start of the text becomes one hyphen. */
  lemma {:induction false} CollapseRunStart(run: string, b: string)
    requires run != [] && forall k :: 0 <= k < |run| ==> !IsSlugChar(run[k])
    requires b == [] || IsSlugChar(b[0])
    ensures Collapse(run + b, false) == "-" + Collapse(b, false)
  {
    var c := run + b;
    assert c[0] == run[0] && c[1..] == run[1..] + b;
    SkipRun(run[1..], b);
  }

  /** Collapsing splits at a character of `[a-z0-9]`: what follows it is collapsed on its own. */
  lemma {:induction false} CollapseAppend(a: string, c: string, afterRun: bool)
    requires a != [] && IsSlugChar(a[|a| - 1])
    ensures Collapse(a + c, afterRun) == Collapse(a, afterRun) + Collapse(c, false)
    decreases |a|
  {
    var s := a + c;
    assert s[0] == a[0];
    assert s[1..] == a[1..] + c;
    if |a| == 1 {
      assert a[1..] == [];
      assert s[1..] == c;
    } else {
      CollapseAppend(a[1..], c, !IsSlugChar(a[0]));
    }
  }

  /** Right after a run, more characters outside `[a-z0-9]` add nothing. */
  lemma {:induction false} SkipRun(run: string, b: string)
    requires forall k :: 0 <= k < |run| ==> !IsSlugChar(run[k])
    requires b == [] || IsSlugChar(b[0])
    ensures Collapse(run + b, true) == Collapse(b, false)
    decreases |run|
  {
    if run == [] {
      assert run + b == b;
    } else {
      assert (run + b)[0] == run[0];
      assert (run + b)[1..] == run[1..] + b;
      SkipRun(run[1..], b);
    }
  }

  /** A slug is its own slug. */
  lemma SlugOfSlug(t: string)
    requires IsSlug(t)
    ensures Slug(t) == t
  {
    assert Lower(t) == t;
    CollapseKeepsSlugs(t, false);
  }

  /** The slug rule is idempotent. */
  lemma SlugIdempotent(name: string)
    ensures Slug(Slug(name)) == Slug(name)
  {
    SlugOfSlug(Slug(name));
  }

  /** The characters of a string in `[a-z0-9]`, in order: the ASCII lower-case letters and the
      digits. Upper-case and non-ASCII letters are dropped. */
  function Alnum(s: string): string
  {
    if s == [] then [] else (if IsSlugChar(s[0]) then [s[0]] else []) + Alnum(s[1..])
  }

  lemma {:induction false} AlnumConcat(a: string, b: string)
    ensures Alnum(a + b) == Alnum(a) + Alnum(b)
    decreases |a|
  {
    if a == [] {
      assert a + b == b;
    } else {
      var h := if IsSlugChar(a[0]) then [a[0]] else [];
      assert (a + b)[0] == a[0];
      assert (a + b)[1..] == a[1..] + b;
      assert Alnum(a + b) == h + Alnum(a[1..] + b);
      AlnumConcat(a[1..], b);
      assert Alnum(a) == h + Alnum(a[1..]);
      assert h + (Alnum(a[1..]) + Alnum(b)) == (h + Alnum(a[1..])) + Alnum(b);
    }
  }

  lemma {:induction false} CollapseKeepsAlnum(s: string, afterRun: bool)
    ensures Alnum(Collapse(s, afterRun)) == Alnum(s)
    decreases |s|
  {
    if s != [] {
      CollapseKeepsAlnum(s[1..], !IsSlugChar(s[0]));
      var rest := Collapse(s[1..], !IsSlugChar(s[0]));
      if IsSlugChar(s[0]) {
        AlnumConcat([s[0]], rest);
      } else if !afterRun {
        AlnumConcat("-", rest);
      }
    }
  }

  /** Every letter and digit of the lower-cased name survives in the slug, in order, and nothing
      else but hyphens is added. */
  lemma SlugKeepsAlnum(name: string)
    ensures Alnum(Slug(name)) == Alnum(Lower(name))
  {
    var t := Collapse(Lower(name), false);
    CollapseKeepsAlnum(Lower(name), false);
    var a := if t != [] && t[0] == '-' then t[1..] else t;
    assert Alnum(a) == Alnum(t) by {
      if t != [] && t[0] == '-' {
        AlnumConcat("-", a);
        assert t == "-" + a;
      }
    }
    assert Alnum(StripEdges(t)) == Alnum(a) by {
      if a != [] && a[|a| - 1] == '-' {
        AlnumConcat(a[..|a| - 1], "-");
        assert a == a[..|a| - 1] + "-";
      }
    }
  }

  /** The slug is empty exactly when the lower-cased name has no letter or digit. */
  lemma SlugEmptyIff(name: string)
    ensures Slug(name) == "" <==> Alnum(Lower(name)) == ""
  {
    SlugKeepsAlnum(name);
    var r := Slug(name);
    if r != "" {
      assert IsSlugChar(r[0]);
      assert Alnum(r) == [r[0]] + Alnum(r[1..]);
    }
  }
}

=== FILE: wrappers.dfy ===
/** Option and Result, used for JSON parsing and for the thrown errors of the source. */
module Wrappers {

  datatype Option<+T> = None | Some(value: T)

  datatype Result<+T, +E> = Ok(value: T) | Err(error: E)

  /** JavaScript truthiness of a possibly missing string: present and non-empty. */
  predicate Truthy(o: Option<string>)
  {
    o.Some? && o.value != ""
  }
}
